=== FILE: README.md ===
# mongo_notebook_manager, modelled in Dafny

`MongoNotebookManager` is a Jupyter contents manager. It keeps notebooks and
directories as rows of a MongoDB *entries* collection and snapshots them into
a *checkpoints* collection. This project models its storage core. That covers
path existence and type queries, directory listings with their
case-insensitive ordering, the save/update/rename/delete lifecycle of an
entry, the checkpoint subsystem in both retention modes
(`checkpoints_history` on or off), and the `get`/`save` dispatch the host
calls.

Layout, one module per file:

- `wrappers.dfy` (`Wrappers`): `Option` and `Result`.
- `text.dfy` (`Text`): decimal rendering of checkpoint ids, ASCII
  lower-casing, Python's string order, suffix and "direct child" tests.
- `documents.dfy` (`Documents`): the store's documents and the MongoDB
  operations the code uses.
  - An equality filter (`Query`) and a `$set` overlay (`Patch`).
  - `find`/`find_one`/`count`, a single or `multi` update, and an upsert
    that inserts the filter's fields plus the overlay.
  - `remove`, which deletes every match.
- `database.dfy` (`Database`): the two collections and an oid counter.
  - The error kinds (`Fault`), and the `Step` an operation returns: the
    store it leaves, plus its result. Saves are not atomic, so a failing
    step still carries what earlier writes did.
  - `Valid`, the store invariant: entries carry no `cp` and checkpoints do;
    each collection's `_id`s are distinct and below the counter.
- `path_index.dfy` (`PathIndex`): `path_exists`, `notebook_exists`,
  `get_notebook_names`, `guess_type`.
- `checkpoints.dfy` (`Checkpoints`): create/list/restore/delete of
  checkpoints, and the laws of repeated creation in each mode.
- `entries.dfy` (`Entries`): `get_notebook`, `create_notebook`,
  `ensure_directory`, `save_notebook`, `update_notebook`,
  `delete_notebook`, `rename_notebook`.
- `listing.dfy` (`Listing`): `sort_key`, `get_dir_model`,
  `list_notebooks`, `list_dirs`, `get_dir`.
- `listing_samples.dfy` (`ListingSamples`): worked listings of a
  two-row store, as written and corrected.
- `facade.dfy` (`Facade`): `get`, `save`, `ensure_root_directory`.
  - The one-line delegations `delete_file`, `rename_file`, `file_exists`
    and `dir_exists` (lines 498-508) are `Entries.DeleteNotebook`,
    `Entries.RenameNotebook`, `PathIndex.NotebookExists` and
    `PathIndex.PathExists` themselves.

Exceptions the host would see map to faults:

| Source exception | Fault |
|---|---|
| `HTTPError(400/404/409)` | `BadRequest`, `NotFound`, `Conflict` |
| The `ValueError` of an unknown type | `UnknownType(tag)` |
| Any other Python exception (`IOError` from `get_dir_model`, subscripting `None`, a `null` payload that `reads` cannot parse) | `ServerError` |

Timestamps (`now`), the user id and `should_list` are parameters. The
notebook codec is the identity on an opaque `Blob`.

Behaviour of the code worth knowing:

- `delete_checkpoint` removes every checkpoint row matching
  `(path, cp)`, not just one.
- Only two checks refuse an occupied path: `rename_notebook`'s 409
  (lines 341-350) and `ensure_directory`'s `path_exists` test (line 243).
  Upserts keyed by `(path, name)` can still add a second row at a path, so
  `notebook_exists` treats two notebook rows at a path as none, and the
  model keeps duplicates possible.
- A failure while `save_notebook` serialises the notebook is reported as a
  400 (lines 306-307), not as an internal error.

## Model

| member | source | states |
|---|---|---|
| Listing.SortKey | mongo_notebook_manager/__init__.py:20-22 | The key is the path with every ASCII capital replaced by its lower-case letter, same length, no capitals left |
| Listing.SortByKey | mongo_notebook_manager/__init__.py:172-177 | The result is ordered by sort key under Python's string order, and is a permutation (same multiset) of its input |
| PathIndex.PathExists | mongo_notebook_manager/__init__.py:91-108 | True exactly when some entry row of any type has the given path |
| PathIndex.NotebookExists | mongo_notebook_manager/__init__.py:114-121 | True exactly when one and only one notebook row sits at the path; two such rows count as none |
| PathIndex.NotebookNames | mongo_notebook_manager/__init__.py:81-89 | One name per notebook row whose path equals the argument, and every name is that path itself |
| PathIndex.GuessType | mongo_notebook_manager/__init__.py:510-521 | `.ipynb` suffix gives notebook; otherwise directory exactly when the path is occupied, else file |
| Listing.GetDirModel | mongo_notebook_manager/__init__.py:135-164 | Fails with a server error exactly when no directory row has path and name both equal to the argument; otherwise a contentless directory model named and located at the path, carrying the timestamps of the first such row, the one `find_one` returns |
| Listing.NotebookModels | mongo_notebook_manager/__init__.py:172-175 | Succeeds exactly when get_notebook with content succeeds for every listed path should_list admits; then the i-th model is get_notebook's result for the i-th admitted path, in order, and every model is what get_notebook with content returns for its own path; a failure is the error of some admitted path's get_notebook |
| Listing.DirModels | mongo_notebook_manager/__init__.py:131 | Succeeds exactly when get_dir_model succeeds for every listed path; then the i-th model is get_dir_model of the i-th path, and every model is what get_dir_model returns for its own path; a failure is a server error |
| Listing.DirReads | mongo_notebook_manager/__init__.py:131 | Reading directory models at a list of paths succeeds exactly when get_dir_model succeeds at each; every model read is the directory model of its own path, one of the listed ones |
| Listing.GetDirAsWritten | mongo_notebook_manager/__init__.py:166-170 | Without content it is exactly get_dir_model. With content it succeeds exactly when get_dir_model does and, if a notebook row sits at the directory's own path and should_list admits it, reading that notebook with content succeeds. The listing then holds one item per notebook row at the directory's own path (if admitted) plus one per directory row there; each item has the directory's own path and is what get_notebook with content or get_dir_model returns for that path |
| Listing.AsWrittenItems | mongo_notebook_manager/__init__.py:123-133 | The as-written `list_notebooks(path) + list_dirs(path)`: succeeds exactly when the notebook read at `path` (if any row is listed) and the directory model of `path` (if any directory row is there) succeed; one item per notebook row at `path` if admitted plus one per directory row there, each the read of `path` itself |
| Listing.AsWrittenListsNoChild | mongo_notebook_manager/__init__.py:123-133 | As written, a listing never contains an entry directly inside the directory |
| ListingSamples.AsWrittenListsItself | mongo_notebook_manager/__init__.py:123-133 | With a directory "a" holding the notebook "a/b", the as-written listing of "a" is just "a" itself |
| Listing.Children | mongo_notebook_manager/__init__.py:166-177 | Both runs are sorted by key. Every listed notebook is a direct child that should_list admits and is exactly what get_notebook with content returns for its path; every listed directory is a direct child and is exactly its get_dir_model. Conversely each admitted child notebook row and each child directory row is listed. A notebook path appears at most once, exactly as often as the store holds notebook rows there; a directory path appears once per directory row at it. The listing succeeds exactly when get_notebook with content succeeds for every admitted child notebook row and get_dir_model for every child directory row |
| Listing.ChildRunsSucceed | mongo_notebook_manager/__init__.py:166-177 | The unsorted child runs succeed exactly when every admitted child notebook reads with content and every child directory has a directory model |
| Listing.ReadAll | mongo_notebook_manager/__init__.py:174-175 | Succeeds exactly when every read succeeds; the i-th model is the i-th read's result, in order; a failure is the error of one of the reads |
| Listing.NotebookReads | mongo_notebook_manager/__init__.py:172-175 | Reading notebooks at a list of paths succeeds exactly when get_notebook with content succeeds at each; a failure is the error of one of them; every model read is a notebook with content, at one of the paths |
| Listing.GetDir | mongo_notebook_manager/__init__.py:166-170 | A directory model for the path. Without content it is exactly get_dir_model. With content it succeeds exactly when get_dir_model and the child listing both succeed, and its listing is the child notebooks followed by the child directories, each item being what reading that child returns |
| ListingSamples.CorrectedListsChildren | mongo_notebook_manager/__init__.py:166-170 | The corrected listing of "a" in that store is exactly the notebook "a/b" with its content |
| Entries.GetNotebook | mongo_notebook_manager/__init__.py:179-215 | 404 unless exactly one notebook sits at the path; otherwise that row's timestamps, and with content its stored payload (a null payload is a server error) |
| Entries.CreateNotebook | mongo_notebook_manager/__init__.py:217-228 | Never a 400; on success it returns the notebook's model without content, and the notebook at the path holds the given content, or the blank notebook when none was given |
| Entries.EnsureDirectory | mongo_notebook_manager/__init__.py:230-261 | Always succeeds, returning the draft's keys or their defaults. Writes nothing when the path argument is occupied. Otherwise the row keyed by (path, name) has the draft's type, content, last-modified and created times and the user; every other row stays, and a row it adds carries that key. Checkpoints never change |
| Entries.EnsureDirectoryIdempotent | mongo_notebook_manager/__init__.py:230-261 | A second identical call leaves the store and result as the first call did |
| Entries.EnsureCheckpoint | mongo_notebook_manager/__init__.py:270-272 | A notebook without checkpoints gets one; one that has some, or a path with no notebook, is left untouched; entries never change |
| Entries.SaveNotebook | mongo_notebook_manager/__init__.py:266-310 | No content gives 400 with nothing written. A move onto an occupied path is the 409 of rename_notebook, with no entry written. On success it returns the model without content, and the notebook at the new path holds the content, name, save time and created time, and has at least one checkpoint if a notebook was there before. Rows at paths other than the old and new one are never touched, and added rows sit at one of those two paths (Entries.SaveOverNotebook and Entries.SaveMovesNotebook give the cases where success is guaranteed) |
| Entries.SavedRowIsTheNotebook | mongo_notebook_manager/__init__.py:288-305 | The upsert keyed by (path, name) lands on the first matching row, patched, or a new row; once it is the only notebook at the path, it is the one get_notebook reads |
| Entries.CheckpointsFollowRename | mongo_notebook_manager/__init__.py:366-375 | After a successful rename every checkpoint of the old path is at the new path, unchanged but for its path; none is left at the old path, and the new path holds exactly the moved ones plus those it had |
| Entries.SaveThenGet | mongo_notebook_manager/__init__.py:266-310 | After a successful save, reading the new path with content returns exactly the saved content and timestamps (Entries.SaveOverNotebook gives a case where success is guaranteed) |
| Entries.SaveOverNotebook | mongo_notebook_manager/__init__.py:266-310 | Saving content over the only entry at a path, a notebook with the draft's name, without a move, succeeds, rewrites that row in place (same number of rows, same `_id`), and reading it back with content returns the saved content and times |
| Entries.SaveMovesNotebook | mongo_notebook_manager/__init__.py:266-310 | Saving content with a move of the only entry at a path, a notebook with the draft's name, onto a free path succeeds, leaves the old path empty, and reading the new path back with content returns the saved content and times |
| Entries.RenameLeavesOnlyEntry | mongo_notebook_manager/__init__.py:341-363 | Renaming the only entry at a path onto a free path leaves it the only entry at the new path and nothing at the old one |
| Entries.UpsertAfterMove | mongo_notebook_manager/__init__.py:288-308 | After the move, the upsert keyed by the new path and the draft's name patches the moved notebook, the read back succeeds, and the old path stays empty |
| Entries.UpsertOntoOnlyEntry | mongo_notebook_manager/__init__.py:288-305 | The upsert keyed by (path, name) of the only entry at a path patches that row in place, keeping every row's path, and leaves it the one notebook there |
| Entries.AutoCheckpointHoldsPreSaveContent | mongo_notebook_manager/__init__.py:270-272 | Saving content over a notebook with no checkpoint, then restoring checkpoint "0", succeeds and brings back the content the notebook had before the save |
| Entries.UpdateNotebook | mongo_notebook_manager/__init__.py:312-317 | Moving onto an occupied path is a 409 with nothing written. Otherwise it succeeds exactly when one notebook sits at the new path afterwards, and fails only with 404. On success it returns that notebook's model, without content. Without a move nothing is written; with one the store is what rename_notebook leaves |
| Entries.RenameNotebook | mongo_notebook_manager/__init__.py:335-375 | Equal paths are a no-op; an occupied new path is a 409 with nothing written; the first entry and every checkpoint at the old path move; all other rows stay |
| Entries.UpdateMovesNotebook | mongo_notebook_manager/__init__.py:312-317 | Moving the only entry at a path, a notebook, onto a free path succeeds, empties the old path, and the notebook read at the new path is the old row with only its path changed |
| Entries.RenameMovesNotebook | mongo_notebook_manager/__init__.py:352-362 | Renaming the only entry at a path, a notebook, onto a free path makes it the one notebook at the new path, unchanged but for its path |
| Entries.CountMoved | mongo_notebook_manager/__init__.py:366-375 | Moving every row at one path to another empties the first and adds its rows to those already at the second |
| Entries.RenameVacatesOldPath | mongo_notebook_manager/__init__.py:350-363 | After a rename the old path holds one entry fewer (none if it held one) and the new path is occupied |
| Entries.DeleteNotebook | mongo_notebook_manager/__init__.py:319-333 | 404 with nothing removed when the path is empty; otherwise every entry and every checkpoint at the path goes and nothing else. For any other path, every query on either collection returns the same rows, in the same order, as before |
| Entries.DeleteKeepsOtherReads | mongo_notebook_manager/__init__.py:319-333 | Deleting one path leaves every other path's existence, its get_notebook result and its checkpoints unchanged |
| Checkpoints.CreateCheckpoint | mongo_notebook_manager/__init__.py:378-401 | No entry is a server error with nothing written; otherwise the id is the decimal count of checkpoints at the path, entries are untouched, rows elsewhere are kept, and the path then has a checkpoint |
| Checkpoints.CheckpointCapturesEntry | mongo_notebook_manager/__init__.py:384-398 | The row the mode's key then finds holds the entry's content and the returned id |
| Checkpoints.FirstCheckpointIsZero | mongo_notebook_manager/__init__.py:387 | The first checkpoint of a path is "0", appended, and holds the entry's content, in both modes |
| Checkpoints.HistoryCountsUp | mongo_notebook_manager/__init__.py:387-390 | In history mode, n creations return "0" to "n-1" and leave n checkpoints at the path carrying those ids in order |
| Checkpoints.HistoryStep | mongo_notebook_manager/__init__.py:387-390 | On top of checkpoints "0" to "m-1", one creation appends checkpoint "m" |
| Checkpoints.KeepLastSingleSlot | mongo_notebook_manager/__init__.py:391-398 | In keep-last mode, at most one row under the entry's identity before means exactly one after, holding the entry's content |
| Checkpoints.KeepLastStep | mongo_notebook_manager/__init__.py:391-398 | In keep-last mode, if the store after n-1 creations holds at most one row under the entry's identity, the n-th creation succeeds and leaves exactly one, holding the entry's content |
| Checkpoints.KeepLastRepeated | mongo_notebook_manager/__init__.py:391-398 | In keep-last mode, any number of creations leave exactly one row under the entry's identity, holding its content |
| Checkpoints.ValidThroughMany | mongo_notebook_manager/__init__.py:378-401 | Repeated creation keeps the store invariant |
| Checkpoints.Infos | mongo_notebook_manager/__init__.py:403-409 | Succeeds exactly when every row has a cp, giving one (id, last modified) per row in order |
| Checkpoints.ListCheckpoints | mongo_notebook_manager/__init__.py:403-409 | On a valid store, one info per checkpoint at the path, in store order, with that row's id and time |
| Checkpoints.RestoreCheckpoint | mongo_notebook_manager/__init__.py:411-428 | 404 with nothing written exactly when no (path, id) checkpoint exists; otherwise the first entry at the path gets the checkpoint's content, time and name. Checkpoints and entries at other paths are untouched; at most one row is added, and only at the path |
| Checkpoints.DeleteCheckpoint | mongo_notebook_manager/__init__.py:430-441 | 404 with nothing removed exactly when no (path, id) checkpoint exists; otherwise exactly the checkpoints with that path and id go. Queries at other paths, and for other ids at the path, return the same rows as before; the checkpoints at the path are the old ones with that id removed, in order |
| Checkpoints.DeleteCheckpointThenList | mongo_notebook_manager/__init__.py:403-441 | After a successful delete, list_checkpoints at the path had the id before, and now lists the old infos without that id, in the same order |
| Checkpoints.DropId | mongo_notebook_manager/__init__.py:436-441 | The infos left are exactly those whose id differs, never more than before |
| Text.ParseNatToString | mongo_notebook_manager/__init__.py:387 | A checkpoint id reads back as the count it was made from, so distinct counts give distinct ids |
| Facade.Get | mongo_notebook_manager/__init__.py:464-479 | A type outside the table is the unknown-type error exactly; every other failure is a 500. A notebook or file read succeeds exactly when get_notebook does and then returns get_notebook's model; a directory read succeeds exactly when the corrected get_dir does (see Findings) and then returns get_dir's model, whose listing holds only direct children |
| Facade.GetAsWritten | mongo_notebook_manager/__init__.py:464-479 | `get` wired to the as-written get_dir: a directory read succeeds exactly when the as-written get_dir does and then returns its model, which with content lists only rows at the directory's own path, never a child; every other read equals Facade.Get |
| Facade.GetAbsentPathIsServerError | mongo_notebook_manager/__init__.py:464-479 | Reading an unoccupied path without a type is a 500, never a 404 |
| Facade.Save | mongo_notebook_manager/__init__.py:481-496 | Dispatches on the resolved type; an unknown type writes nothing; failures are 500s; a directory save always succeeds; a notebook save succeeds exactly when save_notebook does, and leaves its content at the target path |
| Facade.SaveWithoutContentIsServerError | mongo_notebook_manager/__init__.py:492-496 | A notebook draft without content is a 500 with nothing written |
| Facade.SaveFreshNotebook | mongo_notebook_manager/__init__.py:266-310 | Saving a notebook with content to an unoccupied path succeeds |
| Facade.CreateFreshNotebook | mongo_notebook_manager/__init__.py:217-228 | create_notebook at a path no entry occupies succeeds |
| Facade.FreshUpsertIsNotebook | mongo_notebook_manager/__init__.py:288-305 | The upsert into an unoccupied path leaves exactly one notebook there |
| Facade.SaveThenGet | mongo_notebook_manager/__init__.py:481-496 | Reading back a successful notebook save through get returns the saved content |
| Facade.SaveAsWritten | mongo_notebook_manager/__init__.py:481-496 | As written, a draft without a type (or with an empty one) is the unknown-type error; with a type it behaves as Facade.Save |
| Facade.UntypedSaveRefused | mongo_notebook_manager/__init__.py:481-489 | An untyped draft saved to "x.ipynb" in an empty store is refused as written but succeeds when dispatched on the guessed type |
| Facade.EnsureRootDirectory | mongo_notebook_manager/__init__.py:66-79 | Always succeeds and leaves the root path occupied; writes nothing if it already was; a root written here is found by get_dir_model("") |
| Facade.RootWritten | mongo_notebook_manager/__init__.py:66-79 | The root directory write leaves "" occupied, by a row get_dir_model finds when it had to be written |

## Left out

- Connection management (`_connect_server`, `_connect_replica_set`,
  `_connect_collection`, the `MongoProxy` retry wrapper) and configuration
  traits: the store is a value, and each operation is one transaction-free
  function on it.
- The notebook codec (`reads`, `writes`, `to_notebook_json`,
  `new_notebook`) and `mark_trusted_cells`/`check_and_sign`: content is an
  opaque blob stored and returned unchanged. The blank notebook is a
  parameter of `CreateNotebook`.
- Entries.SaveNotebook: the 400 for a codec failure while serialising is not
  modelled, because the codec is the identity here.
- Entries.RenameNotebook: the 500 raised when the entries update itself
  throws is not modelled, because store writes do not fail in the model.
- `info_string`, `is_hidden` (always false), `get_kernel_path` and the
  `utils/ipycompat.py` import shims: they neither read nor write the store.
- Model fields `writable`, `mimetype`, `format` and `user_id` on returned
  models, since they are constants or copied through. `user_id` is written
  on rows.
- Clock and user identity are parameters (`now`, `Config.userId`). The
  source calls `utcnow()` and `now()` separately within one call; the model
  uses one instant.
- Text.Lower: only ASCII capitals are folded, not Python's full Unicode
  `lower()`.
- Listing.SortByKey: the stability of Python's `sorted` is not stated, only
  order and permutation.
- Checkpoints.CheckpointCapturesEntry: in keep-last mode it requires the
  entry's own `id` field to be absent or equal to its `_id`. A restore
  copies that field onto the entry, and the upsert's `$set` would then
  overwrite the key it was filed under.
- Checkpoints.KeepLastSingleSlot: requires the same `id` condition, for
  the same reason.
- Checkpoints.KeepLastStep: requires the same `id` condition, for the
  same reason.
- Checkpoints.KeepLastRepeated: requires the same `id` condition, for the
  same reason.
- Facade.Get: sends directories to the corrected get_dir (`Listing.GetDir`),
  not to the as-written one the source calls; Facade.GetAsWritten is the
  source's wiring.
- A missing `content` key and a `null` one are the same `None` in a row.
  The source distinguishes them only in `save_notebook`'s `'content' not in
  model` test, which the draft's `content` option models.
- Fields neither a filter nor a `$set` provides get placeholder defaults
  on insert ("" / 0 / None). No modelled upsert reaches one.
- Concurrency between clients, and MongoDB's own failures.

## Findings

| source | as written | input that shows it | evidently intended | confidence | as-written member | corrected member |
|---|---|---|---|---|---|---|
| mongo_notebook_manager/__init__.py:123-133 | `list_dirs` and `list_notebooks` (through `get_notebook_names`) select rows whose `path` equals the directory's path. A directory listing therefore holds the directory itself and never its contents | entries: directory "a", notebook "a/b"; `get_dir("a")` lists only "a" | list the notebooks and directories directly inside the directory | medium; not executed | ListingSamples.AsWrittenListsItself | Listing.GetDir |
| mongo_notebook_manager/__init__.py:481-489 | `save` computes `model_type = model.get('type') or guess_type(path)` but indexes the dispatch table with `model['type']` | a draft without `type`, with content, saved to "x.ipynb" in an empty store: `KeyError`, reported as an unknown type | dispatch on `model_type`, as `get` does | high; not executed | Facade.UntypedSaveRefused | Facade.Save |

=== FILE: checkpoints.dfy ===
/** The checkpoint subsystem: create, list, restore and delete snapshots of
    an entry, with the two retention modes `checkpoints_history` selects. */
module Checkpoints {
  import opened Wrappers
  import opened Text
  import opened Documents
  import opened Database
  import opened PathIndex

  /** What `create_checkpoint` and `list_checkpoints` report. */
  datatype CheckpointInfo = CheckpointInfo(id: string, lastModified: int)

  /** Filter on a checkpoint id at a path. */
  function CpQuery(path: string, id: string): Query {
    Query(path, None, None, Some(id), None)
  }

  /** Filter on the entry identity a keep-last checkpoint is stored under. */
  function SlotQuery(path: string, entry: nat): Query {
    Query(path, None, None, None, Some(entry))
  }

  /** The first entry row at `path`: the one `find_one({'path': path})` returns. */
  function EntryAt(s: Store, path: string): Row
    requires PathExists(s, path)
  {
    s.entries[FirstMatch(s.entries, AtPath(path)).value]
  }

  /** The `$set` that copies every field of entry `e` except its `_id`. */
  function Snapshot(e: Row, cp: Option<string>): Patch {
    Patch(Some(e.path), Some(e.name), Some(e.kind), Some(e.content), Some(e.lastModified),
          Some(e.created), Some(e.owner), cp, e.ref)
  }

  /** The filter create_checkpoint upserts by: `(path, cp)` in history mode,
      `(path, id)` keyed by the entry's `_id` in keep-last mode. */
  function CheckpointKey(cfg: Config, path: string, id: string, e: Row): Query {
    if cfg.historyMode then CpQuery(path, id) else SlotQuery(path, e.oid)
  }

  /** `create_checkpoint`: snapshot the first entry at `path` under the id
      `str(number of checkpoint rows at path)`. With no entry the source
      subscripts `None`, which the host reports as a server error. */
  function CreateCheckpoint(cfg: Config, s: Store, path: string): (r: Step<CheckpointInfo>)
    ensures !PathExists(s, path) ==> r == Step(s, Err(ServerError))
    ensures PathExists(s, path) ==> r.out.Ok?
    ensures r.store.entries == s.entries
    ensures r.out.Ok? ==> r.out.value.id == NatToString(|CheckpointsAt(s, path)|)
    ensures r.out.Ok? ==> r.out.value.lastModified == EntryAt(s, path).lastModified
    ensures |r.store.checkpoints| >= |s.checkpoints|
    ensures forall i :: 0 <= i < |s.checkpoints| && s.checkpoints[i].path != path ==>
      r.store.checkpoints[i] == s.checkpoints[i]
    ensures forall i :: |s.checkpoints| <= i < |r.store.checkpoints| ==> r.store.checkpoints[i].path == path
    ensures r.out.Ok? ==> |CheckpointsAt(r.store, path)| > 0
    ensures Valid(s) ==> Valid(r.store)
  {
    match FirstMatch(s.entries, AtPath(path))
    case None => Step(s, Err(ServerError))
    case Some(k) =>
      var e := s.entries[k];
      var id := NatToString(Count(s.checkpoints, AtPath(path)));
      var q := CheckpointKey(cfg, path, id, e);
      var p := Snapshot(e, if cfg.historyMode then e.cp else Some(id));
      UpsertStaysAtPath(s.checkpoints, q, p, s.nextOid);
      Step(UpsertCheckpoint(s, q, p), Ok(CheckpointInfo(id, e.lastModified)))
  }

  /** Checkpoint infos for rows, failing on a row without a `cp` field as
      `c['cp']` does. */
  function Infos(rows: seq<Row>): (r: Result<seq<CheckpointInfo>, Fault>)
    ensures r.Ok? <==> forall i :: 0 <= i < |rows| ==> rows[i].cp.Some?
    ensures r.Ok? ==> |r.value| == |rows|
    ensures r.Ok? ==> forall i :: 0 <= i < |rows| ==>
      r.value[i] == CheckpointInfo(rows[i].cp.value, rows[i].lastModified)
    ensures r.Err? ==> r.error == ServerError
  {
    if |rows| == 0 then Ok([])
    else if rows[0].cp.None? then Err(ServerError)
    else match Infos(rows[1..])
      case Err(f) => Err(f)
      case Ok(tail) => Ok([CheckpointInfo(rows[0].cp.value, rows[0].lastModified)] + tail)
  }

  /** `list_checkpoints`: one info per checkpoint row at `path`, in store
      order, with no sorting. */
  function ListCheckpoints(s: Store, path: string): (r: Result<seq<CheckpointInfo>, Fault>)
    ensures Valid(s) ==> r.Ok?
    ensures r.Ok? ==> |r.value| == |CheckpointsAt(s, path)|
    ensures r.Ok? ==> forall i :: 0 <= i < |r.value| ==>
      Some(r.value[i].id) == CheckpointsAt(s, path)[i].cp &&
      r.value[i].lastModified == CheckpointsAt(s, path)[i].lastModified
  {
    var rows := CheckpointsAt(s, path);
    assert forall i :: 0 <= i < |rows| ==> rows[i] in s.checkpoints;
    Infos(rows)
  }

  /** The `$set` restore writes: the checkpoint without its `cp` and `_id`. */
  function Restored(c: Row): Patch {
    Patch(Some(c.path), Some(c.name), Some(c.kind), Some(c.content), Some(c.lastModified),
          Some(c.created), Some(c.owner), None, c.ref)
  }

  /** `restore_checkpoint`: copy the first checkpoint `(path, id)` onto the
      first entry at `path`, inserting an entry if there is none. */
  function RestoreCheckpoint(s: Store, id: string, path: string): (r: Step<()>)
    ensures r.out.Err? <==> FirstMatch(s.checkpoints, CpQuery(path, id)).None?
    ensures r.out.Err? ==> r == Step(s, Err(NotFound))
    ensures r.store.checkpoints == s.checkpoints
    ensures r.out.Ok? ==>
      var c := s.checkpoints[FirstMatch(s.checkpoints, CpQuery(path, id)).value];
      var k := FirstMatch(r.store.entries, AtPath(path));
      && k.Some?
      && r.store.entries[k.value].content == c.content
      && r.store.entries[k.value].lastModified == c.lastModified
      && r.store.entries[k.value].name == c.name
    ensures |s.entries| <= |r.store.entries| <= |s.entries| + 1
    ensures forall i :: 0 <= i < |s.entries| && s.entries[i].path != path ==> r.store.entries[i] == s.entries[i]
    ensures forall i :: |s.entries| <= i < |r.store.entries| ==> r.store.entries[i].path == path
    ensures Valid(s) ==> Valid(r.store)
  {
    match FirstMatch(s.checkpoints, CpQuery(path, id))
    case None => Step(s, Err(NotFound))
    case Some(k) =>
      var c := s.checkpoints[k];
      UpsertLands(s.entries, AtPath(path), Restored(c), s.nextOid);
      UpsertStaysAtPath(s.entries, AtPath(path), Restored(c), s.nextOid);
      Step(UpsertEntry(s, AtPath(path), Restored(c)), Ok(()))
  }

  /** `delete_checkpoint`: remove every checkpoint row `(path, id)`, or
      raise 404 when there is none. */
  function DeleteCheckpoint(s: Store, id: string, path: string): (r: Step<()>)
    ensures r.out.Err? <==> FirstMatch(s.checkpoints, CpQuery(path, id)).None?
    ensures r.out.Err? ==> r == Step(s, Err(NotFound))
    ensures r.store.entries == s.entries
    ensures forall x :: x in r.store.checkpoints <==>
      x in s.checkpoints && !(x.path == path && x.cp == Some(id))
    ensures forall q: Query :: q.path != path ==> Select(r.store.checkpoints, q) == Select(s.checkpoints, q)
    ensures forall i :: i != id ==> Select(r.store.checkpoints, CpQuery(path, i)) == Select(s.checkpoints, CpQuery(path, i))
    ensures CheckpointsAt(r.store, path) == Remove(CheckpointsAt(s, path), CpQuery(path, id))
    ensures Valid(s) ==> Valid(r.store)
  {
    DeleteCheckpointFrame(s.checkpoints, path, id);
    match FirstMatch(s.checkpoints, CpQuery(path, id))
    case None =>
      assert forall x :: x in CheckpointsAt(s, path) ==> x in s.checkpoints;
      RemoveNothing(CheckpointsAt(s, path), CpQuery(path, id));
      Step(s, Err(NotFound))
    case Some(_) =>
      RemoveKeepsDistinct(s.checkpoints, CpQuery(path, id));
      Step(Store(s.entries, Remove(s.checkpoints, CpQuery(path, id)), s.nextOid), Ok(()))
  }

  /** Removing the checkpoints `(path, id)` leaves other paths, and other
      ids at `path`, listed as before, and the list at `path` loses exactly
      the rows with that id. */
  lemma DeleteCheckpointFrame(rows: seq<Row>, path: string, id: string)
    ensures forall q: Query :: q.path != path ==> Select(Remove(rows, CpQuery(path, id)), q) == Select(rows, q)
    ensures forall i :: i != id ==> Select(Remove(rows, CpQuery(path, id)), CpQuery(path, i)) == Select(rows, CpQuery(path, i))
    ensures Select(Remove(rows, CpQuery(path, id)), AtPath(path)) == Remove(Select(rows, AtPath(path)), CpQuery(path, id))
  {
    RemoveKeepsOtherPaths(rows, CpQuery(path, id));
    forall i | i != id
      ensures Select(Remove(rows, CpQuery(path, id)), CpQuery(path, i)) == Select(rows, CpQuery(path, i))
    {
      RemoveLeavesDisjoint(rows, CpQuery(path, id), CpQuery(path, i));
    }
    SelectAfterRemove(rows, CpQuery(path, id), AtPath(path));
  }

  /** The listed checkpoints other than `id`, in order. */
  function DropId(infos: seq<CheckpointInfo>, id: string): (r: seq<CheckpointInfo>)
    ensures forall x :: x in r <==> x in infos && x.id != id
    ensures |r| <= |infos|
  {
    if |infos| == 0 then []
    else (if infos[0].id == id then [] else [infos[0]]) + DropId(infos[1..], id)
  }

  lemma InfosCons(x: Row, t: seq<Row>)
    requires x.cp.Some? && Infos(t).Ok?
    ensures Infos([x] + t) == Ok([CheckpointInfo(x.cp.value, x.lastModified)] + Infos(t).value)
  {
    assert ([x] + t)[0] == x && ([x] + t)[1..] == t;
  }

  lemma DropIdCons(info: CheckpointInfo, infos: seq<CheckpointInfo>, id: string)
    ensures DropId([info] + infos, id) == if info.id == id then DropId(infos, id) else [info] + DropId(infos, id)
  {
    assert ([info] + infos)[0] == info && ([info] + infos)[1..] == infos;
  }

  /** The infos of the rows left after removing `(path, id)` from rows all
      at `path` are the old infos without `id`, in order. */
  lemma {:induction false} InfosAfterRemove(rows: seq<Row>, path: string, id: string)
    requires forall x :: x in rows ==> x.path == path && x.cp.Some?
    ensures Infos(rows).Ok?
    ensures Infos(Remove(rows, CpQuery(path, id))) == Ok(DropId(Infos(rows).value, id))
  {
    if |rows| == 0 {
    } else {
      var x, t := rows[0], rows[1..];
      assert rows == [x] + t;
      assert x in rows;
      assert forall y :: y in t ==> y in rows;
      InfosAfterRemove(t, path, id);
      InfosCons(x, t);
      RemoveCons(x, t, CpQuery(path, id));
      var info := CheckpointInfo(x.cp.value, x.lastModified);
      DropIdCons(info, Infos(t).value, id);
      if x.cp != Some(id) {
        InfosCons(x, Remove(t, CpQuery(path, id)));
      }
    }
  }

  /** After deleting checkpoint `id` of `path` from a valid store, the
      list at `path` is the old list without `id`, in order: the id was
      listed before and is not listed after. */
  lemma DeleteCheckpointThenList(s: Store, id: string, path: string)
    requires Valid(s) && DeleteCheckpoint(s, id, path).out.Ok?
    ensures var t := DeleteCheckpoint(s, id, path).store;
      && ListCheckpoints(s, path).Ok? && ListCheckpoints(t, path).Ok?
      && (exists i :: 0 <= i < |ListCheckpoints(s, path).value| && ListCheckpoints(s, path).value[i].id == id)
      && ListCheckpoints(t, path).value == DropId(ListCheckpoints(s, path).value, id)
      && forall i :: 0 <= i < |ListCheckpoints(t, path).value| ==> ListCheckpoints(t, path).value[i].id != id
  {
    var t := DeleteCheckpoint(s, id, path).store;
    var rows := CheckpointsAt(s, path);
    assert forall x :: x in rows ==> x in s.checkpoints;
    InfosAfterRemove(rows, path, id);
    var k := FirstMatch(s.checkpoints, CpQuery(path, id)).value;
    var c := s.checkpoints[k];
    assert c in rows;
    var j :| 0 <= j < |rows| && rows[j] == c;
    assert ListCheckpoints(s, path).value[j].id == id;
    var after := DropId(ListCheckpoints(s, path).value, id);
    assert ListCheckpoints(t, path) == Ok(after);
    forall i | 0 <= i < |after| ensures after[i].id != id {
      assert after[i] in after;
    }
  }

  // ---------------------------------------------------------------------
  // Laws of checkpoint creation

  /** The patch create_checkpoint writes in each mode. */
  function SnapshotFor(cfg: Config, e: Row, id: string): Patch {
    Snapshot(e, if cfg.historyMode then e.cp else Some(id))
  }

  /** What a successful create_checkpoint writes, spelled out as one
      upsert: the unfolding the laws below start from. */
  lemma CreateCheckpointWrites(cfg: Config, s: Store, path: string)
    requires PathExists(s, path)
    ensures var e := EntryAt(s, path);
      var id := NatToString(|CheckpointsAt(s, path)|);
      CreateCheckpoint(cfg, s, path).store.checkpoints ==
        Upsert(s.checkpoints, CheckpointKey(cfg, path, id, e), SnapshotFor(cfg, e, id), s.nextOid)
  {
  }

  /** A freshly created checkpoint holds the entry it was taken from: the
      first row its mode's key finds carries the entry's content and the
      returned id. In keep-last mode this needs the entry's own `id` field,
      which a restore may have copied onto it, to be absent or its `_id`. */
  lemma CheckpointCapturesEntry(cfg: Config, s: Store, path: string)
    requires Valid(s) && PathExists(s, path)
    requires !cfg.historyMode ==> EntryAt(s, path).ref.None? || EntryAt(s, path).ref == Some(EntryAt(s, path).oid)
    ensures var e := EntryAt(s, path);
      var r := CreateCheckpoint(cfg, s, path);
      var q := CheckpointKey(cfg, path, r.out.value.id, e);
      && FirstMatch(r.store.checkpoints, q).Some?
      && r.store.checkpoints[FirstMatch(r.store.checkpoints, q).value].content == e.content
      && r.store.checkpoints[FirstMatch(r.store.checkpoints, q).value].cp == Some(r.out.value.id)
  {
    var e := EntryAt(s, path);
    var id := NatToString(|CheckpointsAt(s, path)|);
    var q := CheckpointKey(cfg, path, id, e);
    var p := SnapshotFor(cfg, e, id);
    assert e in s.entries;
    CreateCheckpointWrites(cfg, s, path);
    assert Keeps(p, q);
    UpsertLands(s.checkpoints, q, p, s.nextOid);
    if FirstMatch(s.checkpoints, q).Some? {
      assert s.checkpoints[FirstMatch(s.checkpoints, q).value] in s.checkpoints;
    }
  }

  /** The first checkpoint of a path, in either mode, is "0" and holds the
      entry's content. */
  lemma FirstCheckpointIsZero(cfg: Config, s: Store, path: string)
    requires Valid(s) && PathExists(s, path) && |CheckpointsAt(s, path)| == 0
    ensures var r := CreateCheckpoint(cfg, s, path);
      && r.out.Ok? && r.out.value.id == "0"
      && FirstMatch(r.store.checkpoints, CpQuery(path, "0")) == Some(|s.checkpoints|)
      && r.store.checkpoints[|s.checkpoints|].content == EntryAt(s, path).content
  {
    var e := EntryAt(s, path);
    var c := Seed(CheckpointKey(cfg, path, "0", e), SnapshotFor(cfg, e, "0"), s.nextOid);
    FirstCheckpointAppends(cfg, s, path);
    assert Matches(c, CpQuery(path, "0"));
    FirstMatchAppend(s.checkpoints, c, CpQuery(path, "0"));
  }

  /** With no checkpoint at the path yet, creation appends one row, "0". */
  lemma FirstCheckpointAppends(cfg: Config, s: Store, path: string)
    requires PathExists(s, path) && |CheckpointsAt(s, path)| == 0
    ensures var e := EntryAt(s, path);
      var r := CreateCheckpoint(cfg, s, path);
      && r.out == Ok(CheckpointInfo("0", e.lastModified))
      && r.store.checkpoints == s.checkpoints + [Seed(CheckpointKey(cfg, path, "0", e), SnapshotFor(cfg, e, "0"), s.nextOid)]
      && FirstMatch(s.checkpoints, CpQuery(path, "0")).None?
  {
    var e := EntryAt(s, path);
    assert NatToString(0) == "0";
    CreateCheckpointWrites(cfg, s, path);
    CountZero(s.checkpoints, AtPath(path));
    assert forall i :: 0 <= i < |s.checkpoints| ==> s.checkpoints[i].path != path;
    assert FirstMatch(s.checkpoints, CheckpointKey(cfg, path, "0", e)).None?;
  }

  /** `n` successive create_checkpoint calls on `path`, stopping at the
      first failure; the result lists the ids they returned. */
  function CreateMany(cfg: Config, s: Store, path: string, n: nat): (r: Step<seq<string>>)
    ensures r.out.Ok? ==> |r.out.value| == n
    ensures r.store.entries == s.entries
    ensures PathExists(s, path) ==> r.out.Ok?
  {
    if n == 0 then Step(s, Ok([]))
    else
      var prev := CreateMany(cfg, s, path, n - 1);
      if prev.out.Err? then prev
      else
        var step := CreateCheckpoint(cfg, prev.store, path);
        match step.out
        case Err(f) => Step(step.store, Err(f))
        case Ok(info) => Step(step.store, Ok(prev.out.value + [info.id]))
  }

  /** The ids "0", "1", ..., "n-1". */
  function Ids(n: nat): (r: seq<string>)
    ensures |r| == n
    ensures forall i :: 0 <= i < n ==> r[i] == NatToString(i)
  {
    if n == 0 then [] else Ids(n - 1) + [NatToString(n - 1)]
  }

  /** History mode: starting from no checkpoints at `path`, `n` creations
      return "0" .. "n-1" and leave exactly `n` rows at `path`, carrying
      those ids in order. */
  lemma {:induction false} HistoryCountsUp(cfg: Config, s: Store, path: string, n: nat)
    requires cfg.historyMode && Valid(s) && PathExists(s, path)
    requires |CheckpointsAt(s, path)| == 0
    ensures var r := CreateMany(cfg, s, path, n);
      && r.out == Ok(Ids(n))
      && |CheckpointsAt(r.store, path)| == n
      && (forall i :: 0 <= i < n ==> CheckpointsAt(r.store, path)[i].cp == Some(NatToString(i)))
      && Valid(r.store)
  {
    if n > 0 {
      HistoryCountsUp(cfg, s, path, n - 1);
      var prev := CreateMany(cfg, s, path, n - 1);
      var t := prev.store;
      HistoryStep(cfg, t, path, n - 1);
      var step := CreateCheckpoint(cfg, t, path);
      var r := CreateMany(cfg, s, path, n);
      assert r == Step(step.store, Ok(prev.out.value + [step.out.value.id]));
      var c := step.store.checkpoints[|t.checkpoints|];
      assert CheckpointsAt(r.store, path) == CheckpointsAt(t, path) + [c];
      forall i | 0 <= i < n
        ensures CheckpointsAt(r.store, path)[i].cp == Some(NatToString(i))
      {
        if i < n - 1 {
          assert CheckpointsAt(r.store, path)[i] == CheckpointsAt(t, path)[i];
        }
      }
    }
  }

  /** One history-mode creation on top of `m` checkpoints "0" .. "m-1"
      appends checkpoint "m". */
  lemma HistoryStep(cfg: Config, t: Store, path: string, m: nat)
    requires cfg.historyMode && Valid(t) && PathExists(t, path)
    requires |CheckpointsAt(t, path)| == m
    requires forall i :: 0 <= i < m ==> CheckpointsAt(t, path)[i].cp == Some(NatToString(i))
    ensures var r := CreateCheckpoint(cfg, t, path);
      && r.out == Ok(CheckpointInfo(NatToString(m), EntryAt(t, path).lastModified))
      && |r.store.checkpoints| == |t.checkpoints| + 1
      && CheckpointsAt(r.store, path) == CheckpointsAt(t, path) + [r.store.checkpoints[|t.checkpoints|]]
      && r.store.checkpoints[|t.checkpoints|].cp == Some(NatToString(m))
  {
    var before := CheckpointsAt(t, path);
    var id := NatToString(m);
    var e := EntryAt(t, path);
    assert e in t.entries;
    var q := CpQuery(path, id);
    var p := SnapshotFor(cfg, e, id);
    CreateCheckpointWrites(cfg, t, path);
    forall j | 0 <= j < |t.checkpoints| ensures !Matches(t.checkpoints[j], q) {
      if Matches(t.checkpoints[j], q) {
        var x := t.checkpoints[j];
        assert x in before;
        var i :| 0 <= i < |before| && before[i] == x;
        NatToStringInjective(i, m);
      }
    }
    UpsertInsertSelect(t.checkpoints, q, p, t.nextOid, AtPath(path));
  }

  /** Keep-last mode, one call: if at most one checkpoint row was stored
      under the entry's identity, exactly one is afterwards, and it holds
      the entry's current content. */
  lemma KeepLastSingleSlot(cfg: Config, s: Store, path: string)
    requires !cfg.historyMode && Valid(s) && PathExists(s, path)
    requires EntryAt(s, path).ref.None? || EntryAt(s, path).ref == Some(EntryAt(s, path).oid)
    requires Count(s.checkpoints, SlotQuery(path, EntryAt(s, path).oid)) <= 1
    ensures var e := EntryAt(s, path);
      var r := CreateCheckpoint(cfg, s, path);
      var q := SlotQuery(path, e.oid);
      && Count(r.store.checkpoints, q) == 1
      && FirstMatch(r.store.checkpoints, q).Some?
      && r.store.checkpoints[FirstMatch(r.store.checkpoints, q).value].content == e.content
  {
    var e := EntryAt(s, path);
    var id := NatToString(|CheckpointsAt(s, path)|);
    var q := SlotQuery(path, e.oid);
    var p := SnapshotFor(cfg, e, id);
    CreateCheckpointWrites(cfg, s, path);
    assert Keeps(p, q);
    UpsertSingleMatch(s.checkpoints, q, p, s.nextOid);
    UpsertLands(s.checkpoints, q, p, s.nextOid);
  }

  /** The `n`-th keep-last creation, given that the first `n - 1` left a
      valid store with at most one slot row for the entry. */
  lemma KeepLastStep(cfg: Config, s: Store, path: string, n: nat)
    requires !cfg.historyMode && PathExists(s, path) && n >= 1
    requires EntryAt(s, path).ref.None? || EntryAt(s, path).ref == Some(EntryAt(s, path).oid)
    requires Valid(CreateMany(cfg, s, path, n - 1).store)
    requires Count(CreateMany(cfg, s, path, n - 1).store.checkpoints, SlotQuery(path, EntryAt(s, path).oid)) <= 1
    ensures var r := CreateMany(cfg, s, path, n);
      var q := SlotQuery(path, EntryAt(s, path).oid);
      && r.out.Ok?
      && Count(r.store.checkpoints, q) == 1
      && FirstMatch(r.store.checkpoints, q).Some?
      && r.store.checkpoints[FirstMatch(r.store.checkpoints, q).value].content == EntryAt(s, path).content
  {
    ManyStep(cfg, s, path, n);
    KeepLastSingleSlot(cfg, CreateMany(cfg, s, path, n - 1).store, path);
  }

  /** The n-th creation works on the store the first n - 1 left, whose
      entries are the original ones. */
  lemma ManyStep(cfg: Config, s: Store, path: string, n: nat)
    requires n >= 1 && PathExists(s, path)
    ensures var t := CreateMany(cfg, s, path, n - 1).store;
      && PathExists(t, path)
      && EntryAt(t, path) == EntryAt(s, path)
      && CreateMany(cfg, s, path, n).store == CreateCheckpoint(cfg, t, path).store
      && CreateMany(cfg, s, path, n).out.Ok?
  {
  }

  /** Keep-last mode, repeated: `n` >= 1 creations on an entry with no
      checkpoint yet leave exactly one row under its identity, holding its
      content. */
  lemma {:induction false} KeepLastRepeated(cfg: Config, s: Store, path: string, n: nat)
    requires !cfg.historyMode && Valid(s) && PathExists(s, path)
    requires EntryAt(s, path).ref.None? || EntryAt(s, path).ref == Some(EntryAt(s, path).oid)
    requires Count(s.checkpoints, SlotQuery(path, EntryAt(s, path).oid)) == 0
    requires n >= 1
    ensures var r := CreateMany(cfg, s, path, n);
      var q := SlotQuery(path, EntryAt(s, path).oid);
      && r.out.Ok?
      && Count(r.store.checkpoints, q) == 1
      && FirstMatch(r.store.checkpoints, q).Some?
      && r.store.checkpoints[FirstMatch(r.store.checkpoints, q).value].content == EntryAt(s, path).content
  {
    if n > 1 {
      KeepLastRepeated(cfg, s, path, n - 1);
    }
    ValidThroughMany(cfg, s, path, n - 1);
    KeepLastStep(cfg, s, path, n);
  }

  /** Repeated creation keeps the store valid. */
  lemma {:induction false} ValidThroughMany(cfg: Config, s: Store, path: string, n: nat)
    requires Valid(s)
    ensures Valid(CreateMany(cfg, s, path, n).store)
  {
    if n > 0 {
      ValidThroughMany(cfg, s, path, n - 1);
      var prev := CreateMany(cfg, s, path, n - 1);
      if prev.out.Ok? {
        var step := CreateCheckpoint(cfg, prev.store, path);
        assert Valid(step.store);
        assert CreateMany(cfg, s, path, n).store == step.store;
      }
    }
  }
}

=== FILE: database.dfy ===
/** The manager's state and vocabulary: the two collections, the settings
    that change behaviour, the errors it raises, and the models it exchanges
    with the host. */
module Database {
  import opened Wrappers
  import opened Documents

  /** `checkpoints_history` and the user id `getuser()` returned at start-up. */
  datatype Config = Config(historyMode: bool, userId: string)

  /** The `notebooks` collection (entries), the `checkpoints` collection, and
      the next `_id` the store will hand out. */
  datatype Store = Store(entries: seq<Row>, checkpoints: seq<Row>, nextOid: nat)

  /** What an operation raises. UnknownType is the `ValueError` of the type
      dispatch; the others are `web.HTTPError` codes, and any exception that
      is not an HTTPError reaches the host as ServerError. */
  datatype Fault = BadRequest | NotFound | Conflict | ServerError | UnknownType(tag: string)

  /** The store after an operation, and what the operation returned or
      raised. Operations are not transactional, so a failing one may still
      have written. */
  datatype Step<T> = Step(store: Store, out: Result<T, Fault>)

  /** A model dictionary the host hands in; None is a missing key. */
  datatype Draft = Draft(
    name: Option<string>,
    path: Option<string>,
    kind: Option<string>,
    lastModified: Option<int>,
    created: Option<int>,
    content: Option<Blob>)

  /** What the `content` key of a returned model holds. */
  datatype Body = Omitted | Document(blob: Option<Blob>) | Listing(items: seq<Model>)

  /** A model dictionary handed back to the host. */
  datatype Model = Model(name: string, path: string, kind: string, lastModified: int, created: int, body: Body)

  const NotebookType := "notebook"
  const DirectoryType := "directory"
  const FileType := "file"

  function AtPath(p: string): Query {
    Query(p, None, None, None, None)
  }

  function NotebookAt(p: string): Query {
    Query(p, None, Some(NotebookType), None, None)
  }

  /** The checkpoint rows stored for `p`, in store order. */
  function CheckpointsAt(s: Store, p: string): seq<Row> {
    Select(s.checkpoints, AtPath(p))
  }

  /** The shape every operation keeps: entry rows carry no checkpoint id,
      checkpoint rows do, and `_id`s are distinct and below the next one. */
  ghost predicate Valid(s: Store) {
    && OidsBelow(s.entries, s.nextOid)
    && OidsBelow(s.checkpoints, s.nextOid)
    && DistinctOids(s.entries)
    && DistinctOids(s.checkpoints)
    && CpEverywhere(s.entries, false)
    && CpEverywhere(s.checkpoints, true)
  }

  /** The empty store: no collection holds a row. */
  function EmptyStore(): (s: Store)
    ensures Valid(s)
    ensures |s.entries| == 0 && |s.checkpoints| == 0
  {
    Store([], [], 0)
  }

  /** An upsert on the entries collection. */
  function UpsertEntry(s: Store, q: Query, p: Patch): (r: Store)
    ensures r.checkpoints == s.checkpoints
    ensures FirstMatch(s.entries, q).Some? ==> r.nextOid == s.nextOid
    ensures Valid(s) && q.cp.None? && p.cp.None? ==> Valid(r)
  {
    var r := Store(Upsert(s.entries, q, p, s.nextOid), s.checkpoints,
                   if FirstMatch(s.entries, q).Some? then s.nextOid else s.nextOid + 1);
    UpsertKeepsOids(s.entries, q, p, s.nextOid); r
  }

  /** An upsert on the checkpoints collection. */
  function UpsertCheckpoint(s: Store, q: Query, p: Patch): (r: Store)
    ensures r.entries == s.entries
    ensures FirstMatch(s.checkpoints, q).Some? ==> r.nextOid == s.nextOid
    ensures Valid(s) && (q.cp.Some? || p.cp.Some?) ==> Valid(r)
  {
    var r := Store(s.entries, Upsert(s.checkpoints, q, p, s.nextOid),
                   if FirstMatch(s.checkpoints, q).Some? then s.nextOid else s.nextOid + 1);
    UpsertKeepsOids(s.checkpoints, q, p, s.nextOid); r
  }
}

=== FILE: documents.dfy ===
/** The document-store semantics the manager is written against: equality
    filters, `$set` updates, `update` (first match), `update(multi=True)`
    (every match), `update(upsert=True)` (first match, else insert), `find`
    and `remove` (every match), over a collection held as a sequence of rows
    in the store's natural order. */
module Documents {
  import opened Wrappers

  /** Serialized notebook JSON; the codec that produces it is not modelled. */
  type Blob = string

  /** One document of the `notebooks` or the `checkpoints` collection. */
  datatype Row = Row(
    oid: nat,              // `_id`, assigned by the store on insert
    path: string,
    name: string,
    kind: string,          // the `type` field
    content: Option<Blob>, // None is a stored `null`
    lastModified: int,
    created: int,
    owner: string,         // `user_id`
    cp: Option<string>,    // the checkpoint id; absent from entry rows
    ref: Option<nat>)      // `id`: the entry identity a keep-last checkpoint is keyed by

  /** An equality filter. Every filter the manager builds names a `path`. */
  datatype Query = Query(
    path: string,
    name: Option<string>,
    kind: Option<string>,
    cp: Option<string>,
    ref: Option<nat>)

  predicate Matches(r: Row, q: Query) {
    && r.path == q.path
    && (q.name.Some? ==> r.name == q.name.value)
    && (q.kind.Some? ==> r.kind == q.kind.value)
    && (q.cp.Some? ==> r.cp == q.cp)
    && (q.ref.Some? ==> r.ref == q.ref)
  }

  /** A `$set` document: the fields present overwrite, the others are kept. */
  datatype Patch = Patch(
    path: Option<string>,
    name: Option<string>,
    kind: Option<string>,
    content: Option<Option<Blob>>,
    lastModified: Option<int>,
    created: Option<int>,
    owner: Option<string>,
    cp: Option<string>,
    ref: Option<nat>)

  function Apply(r: Row, p: Patch): Row {
    Row(r.oid, p.path.GetOr(r.path), p.name.GetOr(r.name), p.kind.GetOr(r.kind),
        p.content.GetOr(r.content), p.lastModified.GetOr(r.lastModified),
        p.created.GetOr(r.created), p.owner.GetOr(r.owner),
        if p.cp.Some? then p.cp else r.cp,
        if p.ref.Some? then p.ref else r.ref)
  }

  /** The document an upsert inserts: the filter's fields, then the `$set`.
      A field neither names stays at a placeholder; no upsert of the manager
      leaves one out. */
  function Seed(q: Query, p: Patch, oid: nat): Row {
    Apply(Row(oid, q.path, q.name.GetOr(""), q.kind.GetOr(""), None, 0, 0, "", q.cp, q.ref), p)
  }

  /** The patch never rewrites a field the filter pins to another value. */
  predicate Keeps(p: Patch, q: Query) {
    && (p.path.Some? ==> p.path.value == q.path)
    && (p.name.Some? && q.name.Some? ==> p.name == q.name)
    && (p.kind.Some? && q.kind.Some? ==> p.kind == q.kind)
    && (p.cp.Some? && q.cp.Some? ==> p.cp == q.cp)
    && (p.ref.Some? && q.ref.Some? ==> p.ref == q.ref)
  }

  /** `find_one(filter)`: the position of the first matching row. */
  function FirstMatch(rows: seq<Row>, q: Query): (k: Option<nat>)
    ensures k.Some? ==> k.value < |rows| && Matches(rows[k.value], q)
    ensures k.Some? ==> forall i :: 0 <= i < k.value ==> !Matches(rows[i], q)
    ensures k.None? <==> forall i :: 0 <= i < |rows| ==> !Matches(rows[i], q)
  {
    if |rows| == 0 then None
    else if Matches(rows[0], q) then Some(0)
    else match FirstMatch(rows[1..], q)
      case None => None
      case Some(j) => Some(j + 1)
  }

  /** `find(filter)`: the matching rows, in store order. */
  function Select(rows: seq<Row>, q: Query): (r: seq<Row>)
    ensures |r| <= |rows|
    ensures forall x :: x in r <==> x in rows && Matches(x, q)
  {
    if |rows| == 0 then []
    else (if Matches(rows[0], q) then [rows[0]] else []) + Select(rows[1..], q)
  }

  /** `find(filter).count()`. */
  function Count(rows: seq<Row>, q: Query): nat {
    |Select(rows, q)|
  }

  /** `update(filter, {'$set': p})`: only the first matching row changes. */
  function UpdateFirst(rows: seq<Row>, q: Query, p: Patch): (r: seq<Row>)
    ensures |r| == |rows|
    ensures FirstMatch(rows, q).None? ==> r == rows
    ensures FirstMatch(rows, q).Some? ==>
      var k := FirstMatch(rows, q).value;
      r[k] == Apply(rows[k], p) && forall i :: 0 <= i < |rows| && i != k ==> r[i] == rows[i]
  {
    if |rows| == 0 then []
    else if Matches(rows[0], q) then [Apply(rows[0], p)] + rows[1..]
    else [rows[0]] + UpdateFirst(rows[1..], q, p)
  }

  /** `update(filter, {'$set': p}, multi=True)`: every matching row changes. */
  function UpdateAll(rows: seq<Row>, q: Query, p: Patch): (r: seq<Row>)
    ensures |r| == |rows|
    ensures forall i :: 0 <= i < |rows| ==>
      r[i] == if Matches(rows[i], q) then Apply(rows[i], p) else rows[i]
  {
    if |rows| == 0 then []
    else [if Matches(rows[0], q) then Apply(rows[0], p) else rows[0]] + UpdateAll(rows[1..], q, p)
  }

  /** `update(filter, {'$set': p}, upsert=True)`, inserting with `_id` oid. */
  function Upsert(rows: seq<Row>, q: Query, p: Patch, oid: nat): (r: seq<Row>)
    ensures FirstMatch(rows, q).Some? ==> |r| == |rows|
    ensures FirstMatch(rows, q).None? ==> |r| == |rows| + 1 && r[|rows|] == Seed(q, p, oid)
    ensures forall i :: 0 <= i < |rows| && FirstMatch(rows, q) != Some(i) ==> r[i] == rows[i]
    ensures FirstMatch(rows, q).Some? ==>
      r[FirstMatch(rows, q).value] == Apply(rows[FirstMatch(rows, q).value], p)
  {
    if FirstMatch(rows, q).Some? then UpdateFirst(rows, q, p) else rows + [Seed(q, p, oid)]
  }

  /** An upsert whose filter matches patches its first match in place. */
  lemma UpsertOntoFirst(rows: seq<Row>, q: Query, p: Patch, oid: nat, k: nat)
    requires FirstMatch(rows, q) == Some(k)
    ensures k < |rows| && Upsert(rows, q, p, oid) == rows[k := Apply(rows[k], p)]
  {
  }

  /** `remove(filter)`: every matching row goes, the rest keep their order. */
  function Remove(rows: seq<Row>, q: Query): (r: seq<Row>)
    ensures forall x :: x in r <==> x in rows && !Matches(x, q)
    ensures |r| == |rows| - Count(rows, q)
  {
    if |rows| == 0 then []
    else (if Matches(rows[0], q) then [] else [rows[0]]) + Remove(rows[1..], q)
  }

  // ---------------------------------------------------------------------
  // Counting

  lemma ConcatAssoc(a: seq<Row>, b: seq<Row>, c: seq<Row>)
    ensures a + (b + c) == (a + b) + c
  {
    assert forall i :: 0 <= i < |a + (b + c)| ==> (a + (b + c))[i] == ((a + b) + c)[i];
  }

  /** An upsert that does not move rows off the filter's path changes and
      adds rows at that path only, and leaves a row there. */
  lemma UpsertStaysAtPath(rows: seq<Row>, q: Query, p: Patch, oid: nat)
    requires p.path.None? || p.path == Some(q.path)
    ensures var r := Upsert(rows, q, p, oid);
      && |r| >= |rows|
      && (forall i :: 0 <= i < |rows| && rows[i].path != q.path ==> r[i] == rows[i])
      && (forall i :: |rows| <= i < |r| ==> r[i].path == q.path)
      && exists x :: x in r && x.path == q.path
  {
    var r := Upsert(rows, q, p, oid);
    var w := if FirstMatch(rows, q).Some? then FirstMatch(rows, q).value else |rows|;
    assert r[w].path == q.path && r[w] in r;
  }

  /** A row appended after no match is the first match. */
  lemma {:induction false} FirstMatchAppend(rows: seq<Row>, x: Row, q: Query)
    requires FirstMatch(rows, q).None? && Matches(x, q)
    ensures FirstMatch(rows + [x], q) == Some(|rows|)
  {
    if |rows| > 0 {
      assert (rows + [x])[1..] == rows[1..] + [x];
      FirstMatchAppend(rows[1..], x, q);
    }
  }

  /** Counting the matches of a row list extended by one row. */
  lemma {:induction false} CountAppend(rows: seq<Row>, x: Row, q: Query)
    ensures Count(rows + [x], q) == Count(rows, q) + (if Matches(x, q) then 1 else 0)
    ensures Select(rows + [x], q) == Select(rows, q) + (if Matches(x, q) then [x] else [])
  {
    var t := rows + [x];
    if |rows| == 0 {
      assert t == [x] && t[1..] == [];
    } else {
      CountAppend(rows[1..], x, q);
      assert t[0] == rows[0] && t[1..] == rows[1..] + [x];
      var head := if Matches(rows[0], q) then [rows[0]] else [];
      var tail := if Matches(x, q) then [x] else [];
      assert Select(t, q) == head + Select(t[1..], q);
      assert Select(t[1..], q) == Select(rows[1..], q) + tail;
      assert Select(rows, q) == head + Select(rows[1..], q);
      ConcatAssoc(head, Select(rows[1..], q), tail);
    }
  }

  /** Two row lists that match the filter at the same positions count alike. */
  lemma {:induction false} CountSameShape(a: seq<Row>, b: seq<Row>, q: Query)
    requires |a| == |b|
    requires forall i :: 0 <= i < |a| ==> (Matches(a[i], q) <==> Matches(b[i], q))
    ensures Count(a, q) == Count(b, q)
  {
    if |a| > 0 {
      CountSameShape(a[1..], b[1..], q);
    }
  }

  /** Replacing one matching row by a non-matching one lowers the count by one. */
  lemma {:induction false} CountDropOne(rows: seq<Row>, k: nat, x: Row, q: Query)
    requires k < |rows| && Matches(rows[k], q) && !Matches(x, q)
    ensures Count(rows[k := x], q) == Count(rows, q) - 1
  {
    if k == 0 {
      assert rows[k := x][1..] == rows[1..];
    } else {
      CountDropOne(rows[1..], k - 1, x, q);
      assert rows[k := x][1..] == rows[1..][k - 1 := x];
    }
  }

  /** Exactly one match: it is the first match and no other row matches. */
  lemma {:induction false} CountOne(rows: seq<Row>, q: Query)
    requires Count(rows, q) == 1
    ensures FirstMatch(rows, q).Some?
    ensures forall i :: 0 <= i < |rows| && Matches(rows[i], q) ==> FirstMatch(rows, q) == Some(i)
  {
    if Matches(rows[0], q) {
      assert Count(rows[1..], q) == 0;
      assert forall i :: 1 <= i < |rows| ==> rows[i] == rows[1..][i - 1];
    } else {
      CountOne(rows[1..], q);
      assert forall i :: 1 <= i < |rows| ==> rows[i] == rows[1..][i - 1];
    }
  }

  /** No match at all is exactly a count of zero. */
  lemma {:induction false} CountZero(rows: seq<Row>, q: Query)
    ensures Count(rows, q) == 0 <==> FirstMatch(rows, q).None?
  {
    if |rows| > 0 {
      CountZero(rows[1..], q);
    }
  }

  /** A single matching position means a count of one. */
  lemma {:induction false} CountUnique(rows: seq<Row>, q: Query, k: nat)
    requires k < |rows| && Matches(rows[k], q)
    requires forall i :: 0 <= i < |rows| && Matches(rows[i], q) ==> i == k
    ensures Count(rows, q) == 1
  {
    assert forall i :: 1 <= i < |rows| ==> rows[i] == rows[1..][i - 1];
    if k == 0 {
      CountZero(rows[1..], q);
    } else {
      CountUnique(rows[1..], q, k - 1);
    }
  }

  // ---------------------------------------------------------------------
  // Upsert

  /** After an upsert whose patch keeps the filter, the first row the filter
      finds is the patched one: the old first match, or the inserted seed. */
  lemma UpsertLands(rows: seq<Row>, q: Query, p: Patch, oid: nat)
    requires Keeps(p, q)
    ensures FirstMatch(Upsert(rows, q, p, oid), q) ==
      (if FirstMatch(rows, q).Some? then FirstMatch(rows, q) else Some(|rows|))
    ensures var r := Upsert(rows, q, p, oid);
      r[FirstMatch(r, q).value] ==
        if FirstMatch(rows, q).Some? then Apply(rows[FirstMatch(rows, q).value], p) else Seed(q, p, oid)
  {
    var r := Upsert(rows, q, p, oid);
    var expected := if FirstMatch(rows, q).Some? then FirstMatch(rows, q).value else |rows|;
    assert Matches(r[expected], q);
    assert forall i :: 0 <= i < expected ==> r[i] == rows[i];
    var k := FirstMatch(r, q).value;
    assert k == expected;
  }

  /** Repeating an upsert whose patch keeps its filter changes nothing more. */
  lemma UpsertIdempotent(rows: seq<Row>, q: Query, p: Patch, oid: nat, oid2: nat)
    requires Keeps(p, q)
    ensures FirstMatch(Upsert(rows, q, p, oid), q).Some?
    ensures Upsert(Upsert(rows, q, p, oid), q, p, oid2) == Upsert(rows, q, p, oid)
  {
    UpsertLands(rows, q, p, oid);
    var r := Upsert(rows, q, p, oid);
    var r2 := Upsert(r, q, p, oid2);
    var k := FirstMatch(r, q).value;
    assert r2[k] == r[k];
    assert forall i :: 0 <= i < |r| ==> r2[i] == r[i];
  }

  /** An upsert that keeps its filter leaves a filter matched at most once
      before matched exactly once after. */
  lemma UpsertSingleMatch(rows: seq<Row>, q: Query, p: Patch, oid: nat)
    requires Keeps(p, q) && Count(rows, q) <= 1
    ensures Count(Upsert(rows, q, p, oid), q) == 1
  {
    var after := Upsert(rows, q, p, oid);
    CountZero(rows, q);
    if FirstMatch(rows, q).Some? {
      CountSameShape(rows, after, q);
    } else {
      assert after == rows + [Seed(q, p, oid)];
      CountAppend(rows, Seed(q, p, oid), q);
    }
  }

  /** An upsert that finds nothing appends its seed: any other filter sees
      what it saw before, plus the seed if that matches. */
  lemma UpsertInsertSelect(rows: seq<Row>, q: Query, p: Patch, oid: nat, q2: Query)
    requires FirstMatch(rows, q).None?
    ensures Select(Upsert(rows, q, p, oid), q2) ==
      Select(rows, q2) + (if Matches(Seed(q, p, oid), q2) then [Seed(q, p, oid)] else [])
  {
    CountAppend(rows, Seed(q, p, oid), q2);
  }

  // ---------------------------------------------------------------------
  // Row-level invariants kept by the collection operations

  ghost predicate OidsBelow(rows: seq<Row>, n: nat) {
    forall x :: x in rows ==> x.oid < n
  }

  ghost predicate DistinctOids(rows: seq<Row>) {
    forall i, j :: 0 <= i < j < |rows| ==> rows[i].oid != rows[j].oid
  }

  /** Every row has a checkpoint id (`present`) or none has. */
  ghost predicate CpEverywhere(rows: seq<Row>, present: bool) {
    forall x :: x in rows ==> x.cp.Some? == present
  }

  /** Rewriting rows in place without touching `_id` or `cp` keeps every
      row-level invariant. */
  lemma SameShapeKeepsInvariants(rows: seq<Row>, r: seq<Row>, n: nat)
    requires |r| == |rows|
    requires forall i :: 0 <= i < |rows| ==> r[i].oid == rows[i].oid && r[i].cp == rows[i].cp
    ensures OidsBelow(rows, n) ==> OidsBelow(r, n)
    ensures DistinctOids(rows) ==> DistinctOids(r)
    ensures forall b :: CpEverywhere(rows, b) ==> CpEverywhere(r, b)
  {
    assert forall x :: x in r ==> exists i :: 0 <= i < |rows| && x.oid == rows[i].oid && x.cp == rows[i].cp && rows[i] in rows;
  }

  /** Removal keeps `_id`s distinct. */
  lemma {:induction false} RemoveKeepsDistinct(rows: seq<Row>, q: Query)
    ensures DistinctOids(rows) ==> DistinctOids(Remove(rows, q))
  {
    if |rows| > 0 && DistinctOids(rows) {
      assert DistinctOids(rows[1..]) by {
        forall i, j | 0 <= i < j < |rows[1..]| ensures rows[1..][i].oid != rows[1..][j].oid {
          assert rows[1..][i] == rows[i + 1] && rows[1..][j] == rows[j + 1];
        }
      }
      RemoveKeepsDistinct(rows[1..], q);
      var tail := Remove(rows[1..], q);
      if !Matches(rows[0], q) {
        forall x | x in tail ensures x.oid != rows[0].oid {
          var j :| 0 <= j < |rows[1..]| && rows[1..][j] == x;
          assert rows[j + 1] == x;
        }
        assert Remove(rows, q) == [rows[0]] + tail;
      }
    }
  }

  /** Removal keeps every row-level invariant, and leaves nothing the
      filter matches. */
  lemma RemoveKeepsInvariants(rows: seq<Row>, q: Query, n: nat)
    ensures OidsBelow(rows, n) ==> OidsBelow(Remove(rows, q), n)
    ensures DistinctOids(rows) ==> DistinctOids(Remove(rows, q))
    ensures forall b :: CpEverywhere(rows, b) ==> CpEverywhere(Remove(rows, q), b)
    ensures Count(Remove(rows, q), q) == 0
  {
    RemoveKeepsDistinct(rows, q);
    var r := Remove(rows, q);
    CountZero(r, q);
    assert forall i :: 0 <= i < |r| ==> r[i] in r;
  }

  lemma SelectCons(x: Row, t: seq<Row>, q: Query)
    ensures Select([x] + t, q) == (if Matches(x, q) then [x] + Select(t, q) else Select(t, q))
  {
    assert ([x] + t)[0] == x && ([x] + t)[1..] == t;
  }

  lemma RemoveCons(x: Row, t: seq<Row>, q: Query)
    ensures Remove([x] + t, q) == (if Matches(x, q) then Remove(t, q) else [x] + Remove(t, q))
  {
    assert ([x] + t)[0] == x && ([x] + t)[1..] == t;
  }

  /** `find` after `remove` sees, in the same order, what it saw before
      less the removed rows. */
  lemma {:induction false} SelectAfterRemove(rows: seq<Row>, q: Query, q2: Query)
    ensures Select(Remove(rows, q), q2) == Remove(Select(rows, q2), q)
  {
    if |rows| > 0 {
      var x, t := rows[0], rows[1..];
      assert rows == [x] + t;
      SelectAfterRemove(t, q, q2);
      RemoveCons(x, t, q);
      SelectCons(x, t, q2);
      if Matches(x, q2) {
        RemoveCons(x, Select(t, q2), q);
        if !Matches(x, q) {
          SelectCons(x, Remove(t, q), q2);
        }
      } else if !Matches(x, q) {
        SelectCons(x, Remove(t, q), q2);
      }
    }
  }

  /** Removing with a filter no row matches changes nothing. */
  lemma {:induction false} RemoveNothing(rows: seq<Row>, q: Query)
    requires forall x :: x in rows ==> !Matches(x, q)
    ensures Remove(rows, q) == rows
  {
    if |rows| > 0 {
      var x, t := rows[0], rows[1..];
      assert rows == [x] + t;
      assert forall y :: y in t ==> y in rows;
      RemoveNothing(t, q);
      RemoveCons(x, t, q);
    }
  }

  /** A `remove` leaves whatever a filter that never matches the same row
      as the removed one finds, in the same order. */
  lemma RemoveLeavesDisjoint(rows: seq<Row>, q: Query, q2: Query)
    requires forall x :: x in rows && Matches(x, q2) ==> !Matches(x, q)
    ensures Select(Remove(rows, q), q2) == Select(rows, q2)
  {
    SelectAfterRemove(rows, q, q2);
    RemoveNothing(Select(rows, q2), q);
  }

  /** A `remove` leaves every filter on another path finding what it found. */
  lemma RemoveKeepsOtherPaths(rows: seq<Row>, q: Query)
    ensures forall q2: Query :: q2.path != q.path ==> Select(Remove(rows, q), q2) == Select(rows, q2)
  {
    forall q2: Query | q2.path != q.path
      ensures Select(Remove(rows, q), q2) == Select(rows, q2)
    {
      RemoveLeavesDisjoint(rows, q, q2);
    }
  }

  /** `find_one` returns the first row `find` lists: two collections on
      which a filter finds the same rows read the same first match. */
  lemma {:induction false} FirstMatchIsFirstSelected(rows: seq<Row>, q: Query)
    ensures FirstMatch(rows, q).None? <==> Select(rows, q) == []
    ensures FirstMatch(rows, q).Some? ==> rows[FirstMatch(rows, q).value] == Select(rows, q)[0]
  {
    if |rows| > 0 {
      FirstMatchIsFirstSelected(rows[1..], q);
    }
  }

  /** An upsert inserting a fresh `_id` keeps `_id`s distinct and below the next one. */
  lemma UpsertKeepsOids(rows: seq<Row>, q: Query, p: Patch, oid: nat)
    ensures OidsBelow(rows, oid) && DistinctOids(rows) ==>
      OidsBelow(Upsert(rows, q, p, oid), oid + 1) && DistinctOids(Upsert(rows, q, p, oid))
  {
    var r := Upsert(rows, q, p, oid);
    assert forall i :: 0 <= i < |rows| ==> r[i].oid == rows[i].oid;
    if FirstMatch(rows, q).None? {
      assert forall i :: 0 <= i < |rows| ==> rows[i] in rows;
    }
  }
}

=== FILE: entries.dfy ===
/** The entry lifecycle: reading, creating, saving, renaming and deleting
    notebooks and directories in the entries collection. */
module Entries {
  import opened Wrappers
  import opened Text
  import opened Documents
  import opened Database
  import opened PathIndex
  import opened Checkpoints

  /** The `$set` a rename writes. */
  function MoveTo(p: string): Patch {
    Patch(Some(p), None, None, None, None, None, None, None, None)
  }

  /** `update({'path': old}, {'$set': {'path': new}})`: the first row at
      the old path moves; no `_id` or `cp` changes. */
  function MoveFirst(rows: seq<Row>, oldPath: string, newPath: string): (r: seq<Row>)
    ensures |r| == |rows|
    ensures forall i :: 0 <= i < |rows| && FirstMatch(rows, AtPath(oldPath)) != Some(i) ==> r[i] == rows[i]
    ensures FirstMatch(rows, AtPath(oldPath)).Some? ==>
      var k := FirstMatch(rows, AtPath(oldPath)).value;
      r[k] == rows[k].(path := newPath)
    ensures forall i :: 0 <= i < |rows| ==> r[i].oid == rows[i].oid && r[i].cp == rows[i].cp
  {
    UpdateFirst(rows, AtPath(oldPath), MoveTo(newPath))
  }

  /** The same update with `multi=True`: every row at the old path moves. */
  function MoveAll(rows: seq<Row>, oldPath: string, newPath: string): (r: seq<Row>)
    ensures |r| == |rows|
    ensures forall i :: 0 <= i < |rows| ==>
      r[i] == if rows[i].path == oldPath then rows[i].(path := newPath) else rows[i]
  {
    UpdateAll(rows, AtPath(oldPath), MoveTo(newPath))
  }

  /** The two writes of a rename: the first entry at the old path and every
      checkpoint there move to the new path. */
  function Move(s: Store, oldPath: string, newPath: string): (t: Store)
    ensures t.entries == MoveFirst(s.entries, oldPath, newPath)
    ensures t.checkpoints == MoveAll(s.checkpoints, oldPath, newPath)
    ensures t.nextOid == s.nextOid
    ensures Valid(s) ==> Valid(t)
  {
    var entries := MoveFirst(s.entries, oldPath, newPath);
    var checkpoints := MoveAll(s.checkpoints, oldPath, newPath);
    SameShapeKeepsInvariants(s.entries, entries, s.nextOid);
    SameShapeKeepsInvariants(s.checkpoints, checkpoints, s.nextOid);
    Store(entries, checkpoints, s.nextOid)
  }

  /** `rename_notebook`: refuse when any entry already sits at the new path;
      otherwise move the first entry at the old path and every checkpoint
      row at the old path. */
  function RenameNotebook(s: Store, oldPath: string, newPath: string): (r: Step<()>)
    ensures oldPath == newPath ==> r == Step(s, Ok(()))
    ensures oldPath != newPath && PathExists(s, newPath) ==> r == Step(s, Err(Conflict))
    ensures oldPath != newPath && !PathExists(s, newPath) ==> r.out.Ok?
    ensures r.out.Err? ==> r == Step(s, Err(Conflict))
    ensures |r.store.entries| == |s.entries| && |r.store.checkpoints| == |s.checkpoints|
    ensures r.out.Ok? && oldPath != newPath ==> forall i :: 0 <= i < |s.checkpoints| ==>
      r.store.checkpoints[i] ==
        if s.checkpoints[i].path == oldPath then s.checkpoints[i].(path := newPath) else s.checkpoints[i]
    ensures forall i :: 0 <= i < |s.entries| && FirstMatch(s.entries, AtPath(oldPath)) != Some(i) ==>
      r.store.entries[i] == s.entries[i]
    ensures r.out.Ok? && oldPath != newPath && PathExists(s, oldPath) ==>
      var k := FirstMatch(s.entries, AtPath(oldPath)).value;
      r.store.entries[k] == s.entries[k].(path := newPath)
    ensures r.store.nextOid == s.nextOid
    ensures Valid(s) ==> Valid(r.store)
  {
    if newPath == oldPath then Step(s, Ok(()))
    else if PathExists(s, newPath) then Step(s, Err(Conflict))
    else Step(Move(s, oldPath, newPath), Ok(()))
  }

  /** After a rename, the old path holds one entry row fewer; in particular
      a path that held exactly one entry holds none. */
  lemma RenameVacatesOldPath(s: Store, oldPath: string, newPath: string)
    requires oldPath != newPath && PathExists(s, oldPath)
    requires RenameNotebook(s, oldPath, newPath).out.Ok?
    ensures var t := RenameNotebook(s, oldPath, newPath).store;
      && Count(t.entries, AtPath(oldPath)) == Count(s.entries, AtPath(oldPath)) - 1
      && (Count(s.entries, AtPath(oldPath)) == 1 ==> !PathExists(t, oldPath))
      && PathExists(t, newPath)
  {
    var t := RenameNotebook(s, oldPath, newPath).store;
    var k := FirstMatch(s.entries, AtPath(oldPath)).value;
    assert t.entries == s.entries[k := s.entries[k].(path := newPath)];
    CountDropOne(s.entries, k, s.entries[k].(path := newPath), AtPath(oldPath));
    CountZero(t.entries, AtPath(oldPath));
    assert t.entries[k].path == newPath;
  }

  /** `delete_notebook`: with some entry at `path`, remove every checkpoint
      row and every entry row at `path`; otherwise raise 404. */
  function DeleteNotebook(s: Store, path: string): (r: Step<()>)
    ensures !PathExists(s, path) ==> r == Step(s, Err(NotFound))
    ensures PathExists(s, path) ==> r.out.Ok?
    ensures r.out.Ok? ==> !PathExists(r.store, path) && |CheckpointsAt(r.store, path)| == 0
    ensures forall x :: x in r.store.entries <==> x in s.entries && (r.out.Err? || x.path != path)
    ensures forall x :: x in r.store.checkpoints <==> x in s.checkpoints && (r.out.Err? || x.path != path)
    ensures forall q: Query :: q.path != path ==>
      Select(r.store.entries, q) == Select(s.entries, q) && Select(r.store.checkpoints, q) == Select(s.checkpoints, q)
    ensures Valid(s) ==> Valid(r.store)
  {
    match FirstMatch(s.entries, AtPath(path))
    case None => Step(s, Err(NotFound))
    case Some(_) =>
      var t := Store(Remove(s.entries, AtPath(path)), Remove(s.checkpoints, AtPath(path)), s.nextOid);
      RemoveKeepsInvariants(s.entries, AtPath(path), s.nextOid);
      RemoveKeepsInvariants(s.checkpoints, AtPath(path), s.nextOid);
      RemoveKeepsOtherPaths(s.entries, AtPath(path));
      RemoveKeepsOtherPaths(s.checkpoints, AtPath(path));
      Step(t, Ok(()))
  }

  /** Deleting one path leaves every read of another path as it was: the
      notebook get_notebook returns and the checkpoints stored there. */
  lemma DeleteKeepsOtherReads(s: Store, path: string, p: string, withContent: bool)
    requires p != path
    ensures var t := DeleteNotebook(s, path).store;
      && PathExists(t, p) == PathExists(s, p)
      && GetNotebook(t, p, withContent) == GetNotebook(s, p, withContent)
      && CheckpointsAt(t, p) == CheckpointsAt(s, p)
  {
    var t := DeleteNotebook(s, path).store;
    assert AtPath(p).path != path && NotebookAt(p).path != path;
    ReadsFollowSelect(s, t, p, withContent);
  }

  /** Two stores whose filters on `p` find the same rows read `p` alike. */
  lemma ReadsFollowSelect(s: Store, t: Store, p: string, withContent: bool)
    requires Select(t.entries, AtPath(p)) == Select(s.entries, AtPath(p))
    requires Select(t.entries, NotebookAt(p)) == Select(s.entries, NotebookAt(p))
    ensures PathExists(t, p) == PathExists(s, p)
    ensures GetNotebook(t, p, withContent) == GetNotebook(s, p, withContent)
  {
    FirstMatchIsFirstSelected(t.entries, AtPath(p));
    FirstMatchIsFirstSelected(s.entries, AtPath(p));
    FirstMatchIsFirstSelected(t.entries, NotebookAt(p));
    FirstMatchIsFirstSelected(s.entries, NotebookAt(p));
    if NotebookExists(s, p) {
      assert NotebookRow(t, p) == NotebookRow(s, p);
    }
  }

  /** The notebook row `get_notebook` reads: the only one at `path`. */
  function NotebookRow(s: Store, path: string): Row
    requires NotebookExists(s, path)
  {
    s.entries[FirstMatch(s.entries, NotebookAt(path)).value]
  }

  /** `get_notebook`: 404 unless exactly one notebook row sits at `path`;
      with `withContent`, its stored payload, which must not be `null`. */
  function GetNotebook(s: Store, path: string, withContent: bool): (r: Result<Model, Fault>)
    ensures !NotebookExists(s, path) ==> r == Err(NotFound)
    ensures r.Err? ==> r.error == NotFound || (r.error == ServerError && withContent)
    ensures r.Ok? ==>
      && NotebookExists(s, path)
      && r.value.name == path && r.value.path == path && r.value.kind == NotebookType
      && r.value.lastModified == NotebookRow(s, path).lastModified
      && r.value.created == NotebookRow(s, path).created
      && (withContent ==> NotebookRow(s, path).content.Some? &&
                          r.value.body == Document(NotebookRow(s, path).content))
      && (!withContent ==> r.value.body == Omitted)
    ensures NotebookExists(s, path) && (!withContent || NotebookRow(s, path).content.Some?) ==> r.Ok?
  {
    if !NotebookExists(s, path) then Err(NotFound)
    else
      var row := NotebookRow(s, path);
      if withContent && row.content.None? then Err(ServerError)
      else Ok(Model(path, path, NotebookType, row.lastModified, row.created,
                    if withContent then Document(row.content) else Omitted))
  }

  /** The model `ensure_directory` builds: each key from the draft, or its
      default. */
  function DirModel(d: Draft, path: string, now: int): (m: Model)
  {
    Model(d.name.GetOr(path), d.path.GetOr(path), d.kind.GetOr(DirectoryType),
          d.lastModified.GetOr(now), d.created.GetOr(now), Document(d.content))
  }

  function DirQuery(m: Model): Query {
    Query(m.path, Some(m.name), None, None, None)
  }

  function DirPatch(cfg: Config, m: Model, content: Option<Blob>): Patch {
    Patch(None, None, Some(m.kind), Some(content), Some(m.lastModified), Some(m.created),
          Some(cfg.userId), None, None)
  }

  /** `ensure_directory`: write a directory row keyed by `(path, name)` only
      when no entry sits at the `path` argument. */
  function EnsureDirectory(cfg: Config, s: Store, d: Draft, path: string, now: int): (r: Step<Model>)
    ensures r.out.Ok?
    ensures r.out.value.path == d.path.GetOr(path) && r.out.value.name == d.name.GetOr(path)
    ensures r.out.value.kind == d.kind.GetOr(DirectoryType)
    ensures r.out.value.lastModified == d.lastModified.GetOr(now) && r.out.value.created == d.created.GetOr(now)
    ensures PathExists(s, path) ==> r.store == s
    ensures r.store.checkpoints == s.checkpoints
    ensures !PathExists(s, path) ==>
      var m := r.out.value;
      var k := FirstMatch(r.store.entries, DirQuery(m));
      && k.Some?
      && r.store.entries[k.value].kind == m.kind
      && r.store.entries[k.value].content == d.content
      && r.store.entries[k.value].lastModified == m.lastModified
      && r.store.entries[k.value].created == m.created
      && r.store.entries[k.value].owner == cfg.userId
    ensures |r.store.entries| >= |s.entries|
    ensures forall i :: 0 <= i < |s.entries| && FirstMatch(s.entries, DirQuery(r.out.value)) != Some(i) ==>
      r.store.entries[i] == s.entries[i]
    ensures forall i :: |s.entries| <= i < |r.store.entries| ==> Matches(r.store.entries[i], DirQuery(r.out.value))
    ensures Valid(s) ==> Valid(r.store)
  {
    var m := DirModel(d, path, now);
    if PathExists(s, path) then Step(s, Ok(m))
    else
      UpsertLands(s.entries, DirQuery(m), DirPatch(cfg, m, d.content), s.nextOid);
      Step(UpsertEntry(s, DirQuery(m), DirPatch(cfg, m, d.content)), Ok(m))
  }

  /** Calling ensure_directory twice with the same arguments leaves the
      store as one call does, and returns the same model. */
  lemma EnsureDirectoryIdempotent(cfg: Config, s: Store, d: Draft, path: string, now: int)
    ensures var once := EnsureDirectory(cfg, s, d, path, now);
      EnsureDirectory(cfg, once.store, d, path, now) == once
  {
    var m := DirModel(d, path, now);
    if !PathExists(s, path) {
      var q := DirQuery(m);
      var p := DirPatch(cfg, m, d.content);
      var once := UpsertEntry(s, q, p);
      UpsertIdempotent(s.entries, q, p, s.nextOid, once.nextOid);
    }
  }

  /** "One checkpoint should always exist": before a notebook that has no
      checkpoint is overwritten, snapshot it. */
  function EnsureCheckpoint(cfg: Config, s: Store, path: string): (r: Step<()>)
    ensures r.store.entries == s.entries
    ensures !NotebookExists(s, path) ==> r == Step(s, Ok(()))
    ensures r.out.Err? ==> r.store == s && r.out.error == ServerError
    ensures NotebookExists(s, path) && r.out.Ok? ==> |CheckpointsAt(r.store, path)| > 0
    ensures NotebookExists(s, path) && |CheckpointsAt(s, path)| > 0 ==> r.store == s
    ensures |r.store.checkpoints| >= |s.checkpoints|
    ensures forall i :: 0 <= i < |s.checkpoints| && s.checkpoints[i].path != path ==>
      r.store.checkpoints[i] == s.checkpoints[i]
    ensures forall i :: |s.checkpoints| <= i < |r.store.checkpoints| ==> r.store.checkpoints[i].path == path
    ensures Valid(s) ==> r.out.Ok? && Valid(r.store)
  {
    if !NotebookExists(s, path) then Step(s, Ok(()))
    else match ListCheckpoints(s, path)
      case Err(f) => Step(s, Err(f))
      case Ok(infos) =>
        if |infos| > 0 then Step(s, Ok(()))
        else
          var c := CreateCheckpoint(cfg, s, path);
          Step(c.store, Ok(()))
  }

  /** The `$set` save_notebook writes. */
  function SavePatch(cfg: Config, blob: Blob, created: int, now: int): Patch {
    Patch(None, None, Some(NotebookType), Some(Some(blob)), Some(now), Some(created),
          Some(cfg.userId), None, None)
  }

  /** `save_notebook`: 400 without content; otherwise ensure a checkpoint,
      rename when the draft names another path, upsert the row keyed by
      `(path, name)`, and read it back without content. The steps are not
      atomic: a failing step leaves what earlier steps wrote. Rows at
      other paths than the two it names are never touched. */
  function SaveNotebook(cfg: Config, s: Store, d: Draft, path: string, now: int): (r: Step<Model>)
    ensures d.content.None? ==> r == Step(s, Err(BadRequest))
    ensures r.out.Ok? ==>
      && r.out.value.path == d.path.GetOr(path)
      && r.out.value.kind == NotebookType
      && r.out.value.body == Omitted
      && NotebookExists(r.store, d.path.GetOr(path))
    ensures r.out.Ok? ==> d.content.Some?
    ensures r.out.Ok? ==>
      var row := NotebookRow(r.store, d.path.GetOr(path));
      && row.content == d.content
      && row.name == d.name.GetOr(path)
      && row.lastModified == now
      && row.created == d.created.GetOr(now)
    ensures r.out.Ok? && NotebookExists(s, path) && Valid(s) ==>
      |CheckpointsAt(r.store, d.path.GetOr(path))| > 0
    ensures Valid(s) && d.content.Some? && d.path.GetOr(path) != path && PathExists(s, d.path.GetOr(path)) ==>
      r.out == Err(Conflict) && r.store.entries == s.entries
    ensures |r.store.entries| >= |s.entries| && |r.store.checkpoints| >= |s.checkpoints|
    ensures forall i :: 0 <= i < |s.entries| && s.entries[i].path != path && s.entries[i].path != d.path.GetOr(path) ==>
      r.store.entries[i] == s.entries[i]
    ensures forall i :: 0 <= i < |s.checkpoints| && s.checkpoints[i].path != path && s.checkpoints[i].path != d.path.GetOr(path) ==>
      r.store.checkpoints[i] == s.checkpoints[i]
    ensures forall i :: |s.entries| <= i < |r.store.entries| ==> r.store.entries[i].path == d.path.GetOr(path)
    ensures forall i :: |s.checkpoints| <= i < |r.store.checkpoints| ==>
      r.store.checkpoints[i].path == path || r.store.checkpoints[i].path == d.path.GetOr(path)
    ensures Valid(s) ==> Valid(r.store)
  {
    if d.content.None? then Step(s, Err(BadRequest))
    else
      var c := EnsureCheckpoint(cfg, s, path);
      if c.out.Err? then Step(c.store, Err(c.out.error))
      else WriteNotebook(cfg, c.store, d, path, now)
  }

  /** What save_notebook does once a checkpoint is ensured: rename when
      the draft names another path, upsert the row keyed by `(path, name)`,
      and read it back without content. */
  function WriteNotebook(cfg: Config, s: Store, d: Draft, path: string, now: int): (r: Step<Model>)
    requires d.content.Some?
    ensures r.out.Ok? ==>
      && r.out.value.path == d.path.GetOr(path)
      && r.out.value.kind == NotebookType
      && r.out.value.body == Omitted
      && NotebookExists(r.store, d.path.GetOr(path))
    ensures r.out.Ok? ==>
      var row := NotebookRow(r.store, d.path.GetOr(path));
      && row.content == d.content
      && row.name == d.name.GetOr(path)
      && row.lastModified == now
      && row.created == d.created.GetOr(now)
    ensures r.out.Ok? && |CheckpointsAt(s, path)| > 0 ==> |CheckpointsAt(r.store, d.path.GetOr(path))| > 0
    ensures d.path.GetOr(path) != path && PathExists(s, d.path.GetOr(path)) ==> r == Step(s, Err(Conflict))
    ensures |r.store.entries| >= |s.entries| && |r.store.checkpoints| == |s.checkpoints|
    ensures forall i :: 0 <= i < |s.entries| && s.entries[i].path != path && s.entries[i].path != d.path.GetOr(path) ==>
      r.store.entries[i] == s.entries[i]
    ensures forall i :: 0 <= i < |s.checkpoints| ==>
      r.store.checkpoints[i] == s.checkpoints[i] || r.store.checkpoints[i].path == d.path.GetOr(path)
    ensures forall i :: 0 <= i < |s.checkpoints| && s.checkpoints[i].path != path ==>
      r.store.checkpoints[i] == s.checkpoints[i]
    ensures forall i :: |s.entries| <= i < |r.store.entries| ==> r.store.entries[i].path == d.path.GetOr(path)
    ensures Valid(s) ==> Valid(r.store)
  {
    var newPath := d.path.GetOr(path);
    var m := if path != newPath then RenameNotebook(s, path, newPath) else Step(s, Ok(()));
    CheckpointsFollowRename(s, path, newPath);
    if m.out.Err? then Step(m.store, Err(m.out.error))
    else UpsertNotebook(cfg, m.store, d, path, now)
  }

  /** The last two steps of save_notebook: upsert the row keyed by
      `(path, name)` at the draft's path, then read it back without content.
      Only entry rows at that path change, and no checkpoint does. */
  function UpsertNotebook(cfg: Config, s: Store, d: Draft, path: string, now: int): (r: Step<Model>)
    requires d.content.Some?
    ensures r.out.Ok? ==>
      && r.out.value.path == d.path.GetOr(path)
      && r.out.value.kind == NotebookType
      && r.out.value.body == Omitted
      && NotebookExists(r.store, d.path.GetOr(path))
    ensures r.out.Ok? ==>
      var row := NotebookRow(r.store, d.path.GetOr(path));
      && row.content == d.content
      && row.name == d.name.GetOr(path)
      && row.lastModified == now
      && row.created == d.created.GetOr(now)
    ensures r.store.checkpoints == s.checkpoints && |r.store.entries| >= |s.entries|
    ensures forall i :: 0 <= i < |s.entries| && s.entries[i].path != d.path.GetOr(path) ==>
      r.store.entries[i] == s.entries[i]
    ensures forall i :: |s.entries| <= i < |r.store.entries| ==> r.store.entries[i].path == d.path.GetOr(path)
    ensures Valid(s) ==> Valid(r.store)
  {
    var newPath := d.path.GetOr(path);
    var q := Query(newPath, Some(d.name.GetOr(path)), None, None, None);
    var p := SavePatch(cfg, d.content.value, d.created.GetOr(now), now);
    var t := UpsertEntry(s, q, p);
    SavedRowIsTheNotebook(s, q, p, newPath);
    UpsertEntryStaysAtPath(s, q, p);
    Step(t, GetNotebook(t, newPath, false))
  }

  /** An upsert whose patch leaves `path` alone changes only rows at the
      filter's path, and any row it adds is there too. */
  lemma UpsertEntryStaysAtPath(s: Store, q: Query, p: Patch)
    requires p.path.None? && q.cp.None? && p.cp.None?
    ensures var t := UpsertEntry(s, q, p);
      && |t.entries| >= |s.entries|
      && (forall i :: 0 <= i < |s.entries| && s.entries[i].path != q.path ==> t.entries[i] == s.entries[i])
      && (forall i :: |s.entries| <= i < |t.entries| ==> t.entries[i].path == q.path)
      && (Valid(s) ==> Valid(t))
  {
    var t := UpsertEntry(s, q, p);
    assert t.entries == Upsert(s.entries, q, p, s.nextOid);
  }

  /** The row save_notebook upserts is the notebook get_notebook finds, once
      exactly one notebook sits at the path. */
  lemma SavedRowIsTheNotebook(s: Store, q: Query, p: Patch, newPath: string)
    requires q.path == newPath && q.name.Some? && q.kind.None? && q.cp.None? && q.ref.None?
    requires p.path.None? && p.name.None? && p.kind == Some(NotebookType) && p.cp.None? && p.ref.None?
    ensures var t := UpsertEntry(s, q, p);
      var k := FirstMatch(t.entries, q).value;
      && FirstMatch(t.entries, q).Some?
      && t.entries[k] == (if FirstMatch(s.entries, q).Some? then Apply(s.entries[FirstMatch(s.entries, q).value], p) else Seed(q, p, s.nextOid))
      && (NotebookExists(t, newPath) ==> NotebookRow(t, newPath) == t.entries[k])
  {
    var t := UpsertEntry(s, q, p);
    UpsertLands(s.entries, q, p, s.nextOid);
    var k := FirstMatch(t.entries, q).value;
    assert Matches(t.entries[k], NotebookAt(newPath));
  }

  /** Moving every row at `o` to `n` empties `o` and adds its rows to
      those already at `n`. */
  lemma {:induction false} CountMoved(rows: seq<Row>, o: string, n: string)
    requires o != n
    ensures Count(MoveAll(rows, o, n), AtPath(n)) == Count(rows, AtPath(o)) + Count(rows, AtPath(n))
    ensures Count(MoveAll(rows, o, n), AtPath(o)) == 0
  {
    if |rows| > 0 {
      var t := MoveAll(rows, o, n);
      CountMoved(rows[1..], o, n);
      assert t[1..] == MoveAll(rows[1..], o, n);
      assert Select(t, AtPath(n)) == (if Matches(t[0], AtPath(n)) then [t[0]] else []) + Select(t[1..], AtPath(n));
      assert !Matches(t[0], AtPath(o));
      assert Select(t, AtPath(o)) == Select(t[1..], AtPath(o));
    }
  }

  /** After a successful rename every checkpoint that was at the old path
      is at the new one, unchanged otherwise; none is left at the old path,
      and the new path holds the moved ones plus those it already had. */
  lemma CheckpointsFollowRename(s: Store, oldPath: string, newPath: string)
    ensures var m := RenameNotebook(s, oldPath, newPath);
      m.out.Ok? ==> forall x :: x in CheckpointsAt(s, oldPath) ==> x.(path := newPath) in CheckpointsAt(m.store, newPath)
    ensures var m := RenameNotebook(s, oldPath, newPath);
      m.out.Ok? && oldPath != newPath ==>
        && |CheckpointsAt(m.store, oldPath)| == 0
        && |CheckpointsAt(m.store, newPath)| == |CheckpointsAt(s, oldPath)| + |CheckpointsAt(s, newPath)|
  {
    var m := RenameNotebook(s, oldPath, newPath);
    if m.out.Ok? && oldPath != newPath {
      forall x | x in CheckpointsAt(s, oldPath) ensures x.(path := newPath) in CheckpointsAt(m.store, newPath) {
        var i :| 0 <= i < |s.checkpoints| && s.checkpoints[i] == x;
        assert m.store.checkpoints[i] == x.(path := newPath);
        assert m.store.checkpoints[i] in m.store.checkpoints;
      }
      CountMoved(s.checkpoints, oldPath, newPath);
    }
  }

  /** Saving and reading back with content returns what was saved. */
  lemma SaveThenGet(cfg: Config, s: Store, d: Draft, path: string, now: int)
    ensures var r := SaveNotebook(cfg, s, d, path, now);
      var p := d.path.GetOr(path);
      r.out.Ok? ==>
        GetNotebook(r.store, p, true) == Ok(Model(p, p, NotebookType, now, d.created.GetOr(now), Document(d.content)))
  {
  }

  /** Saving a notebook over itself: when the only entry at `path` is a
      notebook with the draft's name, the save succeeds, rewrites that row
      in place rather than adding one, and reading it back with content
      returns what was saved. */
  lemma SaveOverNotebook(cfg: Config, s: Store, d: Draft, path: string, now: int)
    requires Valid(s) && NotebookExists(s, path) && Count(s.entries, AtPath(path)) == 1
    requires NotebookRow(s, path).name == d.name.GetOr(path)
    requires d.path.GetOr(path) == path && d.content.Some?
    ensures var r := SaveNotebook(cfg, s, d, path, now);
      && r.out.Ok?
      && |r.store.entries| == |s.entries|
      && NotebookRow(r.store, path).oid == NotebookRow(s, path).oid
      && GetNotebook(r.store, path, true) == Ok(Model(path, path, NotebookType, now, d.created.GetOr(now), Document(d.content)))
  {
    var c := EnsureCheckpoint(cfg, s, path);
    var q := Query(path, Some(d.name.GetOr(path)), None, None, None);
    var p := SavePatch(cfg, d.content.value, d.created.GetOr(now), now);
    UpsertOntoOnlyEntry(c.store, q, p);
    assert SaveNotebook(cfg, s, d, path, now) == UpsertNotebook(cfg, c.store, d, path, now);
    SaveThenGet(cfg, s, d, path, now);
  }

  /** Saving with a move: when the only entry at `path` is a notebook with
      the draft's name and the draft names a free path, the save succeeds,
      vacates `path`, and reading the new path back with content returns
      what was saved. */
  lemma SaveMovesNotebook(cfg: Config, s: Store, d: Draft, path: string, now: int)
    requires Valid(s) && NotebookExists(s, path) && Count(s.entries, AtPath(path)) == 1
    requires NotebookRow(s, path).name == d.name.GetOr(path)
    requires d.path.Some? && d.path.value != path && !PathExists(s, d.path.value) && d.content.Some?
    ensures var r := SaveNotebook(cfg, s, d, path, now);
      var p := d.path.value;
      && r.out.Ok?
      && !PathExists(r.store, path)
      && GetNotebook(r.store, p, true) == Ok(Model(p, p, NotebookType, now, d.created.GetOr(now), Document(d.content)))
  {
    var p := d.path.value;
    var c := EnsureCheckpoint(cfg, s, path);
    assert c.out.Ok? && c.store.entries == s.entries;
    RenameMovesNotebook(c.store, path, p);
    RenameLeavesOnlyEntry(c.store, path, p);
    var m := RenameNotebook(c.store, path, p);
    UpsertAfterMove(cfg, m.store, d, path, now);
    SaveIsMoveThenUpsert(cfg, s, d, path, now);
    SaveThenGet(cfg, s, d, path, now);
  }

  /** With content and a move that succeeds, save_notebook is the upsert
      on the store the checkpoint and the rename leave. */
  lemma SaveIsMoveThenUpsert(cfg: Config, s: Store, d: Draft, path: string, now: int)
    requires Valid(s) && d.content.Some? && d.path.GetOr(path) != path
    requires RenameNotebook(EnsureCheckpoint(cfg, s, path).store, path, d.path.GetOr(path)).out.Ok?
    ensures SaveNotebook(cfg, s, d, path, now) ==
      UpsertNotebook(cfg, RenameNotebook(EnsureCheckpoint(cfg, s, path).store, path, d.path.GetOr(path)).store, d, path, now)
  {
  }

  /** The upsert that follows a move: the moved notebook, alone at the new
      path and carrying the draft's name, is patched in place, the read back
      succeeds, and the old path stays empty. */
  lemma UpsertAfterMove(cfg: Config, m: Store, d: Draft, path: string, now: int)
    requires d.path.Some? && d.content.Some?
    requires NotebookExists(m, d.path.value) && Count(m.entries, AtPath(d.path.value)) == 1
    requires NotebookRow(m, d.path.value).name == d.name.GetOr(path)
    requires !PathExists(m, path)
    ensures var r := UpsertNotebook(cfg, m, d, path, now);
      r.out.Ok? && !PathExists(r.store, path)
  {
    var p := d.path.value;
    var q := Query(p, Some(d.name.GetOr(path)), None, None, None);
    var patch := SavePatch(cfg, d.content.value, d.created.GetOr(now), now);
    UpsertOntoOnlyEntry(m, q, patch);
  }

  /** Renaming the only entry at `path` onto a free path leaves it the only
      entry at the new path and nothing at the old one. */
  lemma RenameLeavesOnlyEntry(s: Store, path: string, p: string)
    requires NotebookExists(s, path) && Count(s.entries, AtPath(path)) == 1
    requires p != path && !PathExists(s, p)
    ensures var t := RenameNotebook(s, path, p).store;
      Count(t.entries, AtPath(p)) == 1 && !PathExists(t, path)
  {
    var k := OnlyEntryIsTheNotebook(s, path);
    var t := RenameNotebook(s, path, p).store;
    assert t.entries[k] == s.entries[k].(path := p);
    assert forall i :: 0 <= i < |t.entries| && i != k ==> t.entries[i] == s.entries[i];
    assert forall i :: 0 <= i < |t.entries| && Matches(t.entries[i], AtPath(p)) ==> i == k;
    CountUnique(t.entries, AtPath(p), k);
    RenameVacatesOldPath(s, path, p);
  }

  /** An upsert keyed by the path and name of the only entry at that path,
      a notebook, patches that row in place and leaves it the one notebook
      there. */
  lemma UpsertOntoOnlyEntry(s: Store, q: Query, p: Patch)
    requires NotebookExists(s, q.path) && Count(s.entries, AtPath(q.path)) == 1
    requires q.name == Some(NotebookRow(s, q.path).name) && q.kind.None? && q.cp.None? && q.ref.None?
    requires p.path.None? && p.kind == Some(NotebookType) && p.cp.None? && p.ref.None?
    ensures var t := UpsertEntry(s, q, p);
      && |t.entries| == |s.entries|
      && (forall i :: 0 <= i < |s.entries| ==> t.entries[i].path == s.entries[i].path)
      && NotebookExists(t, q.path)
      && NotebookRow(t, q.path).oid == NotebookRow(s, q.path).oid
  {
    var e := s.entries;
    var k := OnlyEntryIsKeyed(s, q);
    UpsertOntoFirst(e, q, p, s.nextOid, k);
    ReplaceOnlyEntry(e, k, Apply(e[k], p), q.path);
  }

  /** The only entry at a path, a notebook, is the first match of any query
      keyed by that path and its name. */
  lemma OnlyEntryIsKeyed(s: Store, q: Query) returns (k: nat)
    requires NotebookExists(s, q.path) && Count(s.entries, AtPath(q.path)) == 1
    requires q.name == Some(NotebookRow(s, q.path).name) && q.kind.None? && q.cp.None? && q.ref.None?
    ensures FirstMatch(s.entries, q) == Some(k)
    ensures FirstMatch(s.entries, NotebookAt(q.path)) == Some(k)
    ensures Matches(s.entries[k], AtPath(q.path))
  {
    k := OnlyEntryIsTheNotebook(s, q.path);
    var e := s.entries;
    assert Matches(e[k], q);
    var j := FirstMatch(e, q).value;
    assert Matches(e[j], AtPath(q.path));
  }

  /** Replacing the only row at `path` by a notebook row at `path` leaves
      exactly one notebook there, at the same position. */
  lemma ReplaceOnlyEntry(rows: seq<Row>, k: nat, x: Row, path: string)
    requires k < |rows| && Matches(rows[k], AtPath(path)) && Count(rows, AtPath(path)) == 1
    requires x.path == path && x.kind == NotebookType
    ensures Count(rows[k := x], NotebookAt(path)) == 1
    ensures FirstMatch(rows[k := x], NotebookAt(path)) == Some(k)
  {
    var t := rows[k := x];
    CountOne(rows, AtPath(path));
    assert forall i :: 0 <= i < |rows| && Matches(rows[i], AtPath(path)) ==> i == k;
    assert forall i :: 0 <= i < |t| && Matches(t[i], NotebookAt(path)) ==> i == k;
    CountUnique(t, NotebookAt(path), k);
    CountOne(t, NotebookAt(path));
  }

  /** Saving over a notebook with no checkpoint snapshots it first: restoring
      checkpoint "0" afterwards brings back the content it had before the
      save. */
  lemma AutoCheckpointHoldsPreSaveContent(cfg: Config, s: Store, d: Draft, path: string, now: int)
    requires Valid(s) && NotebookExists(s, path) && |CheckpointsAt(s, path)| == 0
    requires d.path.GetOr(path) == path
    ensures var r := SaveNotebook(cfg, s, d, path, now);
      d.content.Some? ==>
        var back := RestoreCheckpoint(r.store, "0", path);
        && back.out.Ok?
        && FirstMatch(back.store.entries, AtPath(path)).Some?
        && back.store.entries[FirstMatch(back.store.entries, AtPath(path)).value].content == EntryAt(s, path).content
  {
    var r := SaveNotebook(cfg, s, d, path, now);
    if d.content.Some? {
      assert PathExists(s, path) by {
        var k := FirstMatch(s.entries, NotebookAt(path)).value;
        assert s.entries[k].path == path;
      }
      FirstCheckpointIsZero(cfg, s, path);
      var c := CreateCheckpoint(cfg, s, path);
      assert EnsureCheckpoint(cfg, s, path).store == c.store;
      assert r.store.checkpoints == c.store.checkpoints;
    }
  }

  /** `update_notebook`: rename when the draft names another path, then
      read the notebook back without content. */
  function UpdateNotebook(s: Store, d: Draft, path: string): (r: Step<Model>)
    ensures d.path.GetOr(path) != path && PathExists(s, d.path.GetOr(path)) ==> r == Step(s, Err(Conflict))
    ensures d.path.GetOr(path) == path || !PathExists(s, d.path.GetOr(path)) ==>
      && (r.out.Ok? <==> NotebookExists(r.store, d.path.GetOr(path)))
      && (r.out.Err? ==> r.out.error == NotFound)
    ensures r.out.Ok? ==>
      && r.out.value.path == d.path.GetOr(path) && r.out.value.kind == NotebookType && r.out.value.body == Omitted
      && r.out.value.lastModified == NotebookRow(r.store, d.path.GetOr(path)).lastModified
    ensures d.path.GetOr(path) == path ==> r.store == s
    ensures d.path.GetOr(path) != path ==> r.store == RenameNotebook(s, path, d.path.GetOr(path)).store
    ensures Valid(s) ==> Valid(r.store)
  {
    var newPath := d.path.GetOr(path);
    var m := if path != newPath then RenameNotebook(s, path, newPath) else Step(s, Ok(()));
    if m.out.Err? then Step(m.store, Err(m.out.error))
    else Step(m.store, GetNotebook(m.store, newPath, false))
  }

  /** Moving the only entry at `path`, a notebook, onto a free path: the
      update succeeds, the old path is left empty, and the notebook row,
      unchanged but for its path, is the one read at the new path. */
  lemma UpdateMovesNotebook(s: Store, d: Draft, path: string)
    requires NotebookExists(s, path) && Count(s.entries, AtPath(path)) == 1
    requires d.path.Some? && d.path.value != path && !PathExists(s, d.path.value)
    ensures var r := UpdateNotebook(s, d, path);
      && r.out.Ok?
      && !PathExists(r.store, path)
      && NotebookRow(r.store, d.path.value) == NotebookRow(s, path).(path := d.path.value)
  {
    var p := d.path.value;
    assert PathExists(s, path) by {
      assert s.entries[FirstMatch(s.entries, NotebookAt(path)).value].path == path;
    }
    RenameMovesNotebook(s, path, p);
    RenameVacatesOldPath(s, path, p);
    assert UpdateNotebook(s, d, path).store == RenameNotebook(s, path, p).store;
  }

  /** Renaming the only entry at `path`, a notebook, onto a free path makes
      it the one notebook at the new path. */
  lemma RenameMovesNotebook(s: Store, path: string, p: string)
    requires NotebookExists(s, path) && Count(s.entries, AtPath(path)) == 1
    requires p != path && !PathExists(s, p)
    ensures var t := RenameNotebook(s, path, p).store;
      NotebookExists(t, p) && NotebookRow(t, p) == NotebookRow(s, path).(path := p)
  {
    var k := OnlyEntryIsTheNotebook(s, path);
    var t := RenameNotebook(s, path, p).store;
    assert t.entries[k] == s.entries[k].(path := p);
    assert forall i :: 0 <= i < |t.entries| && i != k ==> t.entries[i] == s.entries[i];
    OneRowMoved(s.entries, t.entries, k, p);
  }

  /** When one notebook row moves to a path no other row holds, it is the
      only notebook there. */
  lemma OneRowMoved(rows: seq<Row>, moved: seq<Row>, k: nat, p: string)
    requires |moved| == |rows| && k < |rows|
    requires moved[k].path == p && moved[k].kind == NotebookType
    requires forall i :: 0 <= i < |rows| && i != k ==> moved[i] == rows[i]
    requires forall i :: 0 <= i < |rows| ==> rows[i].path != p
    ensures Count(moved, NotebookAt(p)) == 1 && FirstMatch(moved, NotebookAt(p)) == Some(k)
  {
    assert forall i :: 0 <= i < |moved| && Matches(moved[i], NotebookAt(p)) ==> i == k;
    CountUnique(moved, NotebookAt(p), k);
    CountOne(moved, NotebookAt(p));
  }

  /** When a path holds one entry and it is a notebook, the first entry
      there is that notebook. */
  lemma OnlyEntryIsTheNotebook(s: Store, path: string) returns (k: nat)
    requires NotebookExists(s, path) && Count(s.entries, AtPath(path)) == 1
    ensures FirstMatch(s.entries, AtPath(path)) == Some(k)
    ensures FirstMatch(s.entries, NotebookAt(path)) == Some(k)
  {
    k := FirstMatch(s.entries, NotebookAt(path)).value;
    CountOne(s.entries, AtPath(path));
    assert Matches(s.entries[k], AtPath(path));
  }

  /** `create_notebook`: save at `path` with the draft's content, or a blank
      notebook (the codec's `new_notebook()`, given as `blank`). */
  function CreateNotebook(cfg: Config, s: Store, d: Draft, path: string, now: int, blank: Blob): (r: Step<Model>)
    ensures r.out != Err(BadRequest)
    ensures r.out.Ok? ==> r.out.value.path == path && NotebookExists(r.store, path)
    ensures r.out.Ok? ==> NotebookRow(r.store, path).content == Some(d.content.GetOr(blank))
    ensures r.out.Ok? ==> r.out.value.body == Omitted
    ensures Valid(s) ==> Valid(r.store)
  {
    SaveNotebook(cfg, s, d.(content := Some(d.content.GetOr(blank)), path := Some(path), kind := Some(NotebookType)), path, now)
  }
}

=== FILE: facade.dfy ===
/** The host-facing entry points. `get` and `save` pick a reader or a writer
    by type, and every failure inside becomes a server error;
    `ensure_root_directory` runs when the manager starts. The one-line
    delegations `delete_file`, `rename_file`, `file_exists` and `dir_exists`
    are DeleteNotebook, RenameNotebook, NotebookExists and PathExists. */
module Facade {
  import opened Wrappers
  import opened Text
  import opened Documents
  import opened Database
  import opened PathIndex
  import opened Entries
  import opened Listing

  /** `type or guess_type(path)`: a missing or empty type is guessed. */
  function ResolveType(s: Store, path: string, given: Option<string>): string {
    if given.Some? && given.value != "" then given.value else GuessType(s, path)
  }

  /** The keys of the dispatch tables in `get` and `save`. */
  predicate KnownType(t: string) {
    t == NotebookType || t == DirectoryType || t == FileType
  }

  /** `get`: read through `get_notebook` for notebooks and files and
      through `get_dir` for directories; a type outside the table is a
      ValueError, any other failure a 500. */
  function Get(s: Store, path: string, withContent: bool, given: Option<string>, shouldList: string -> bool): (r: Result<Model, Fault>)
    ensures r.Err? ==> r.error == ServerError || r.error.UnknownType?
    ensures r == Err(UnknownType(ResolveType(s, path, given))) <==> !KnownType(ResolveType(s, path, given))
    ensures r.Ok? ==> r.value.path == path
    ensures r.Ok? ==> r.value.kind == (if ResolveType(s, path, given) == DirectoryType then DirectoryType else NotebookType)
    ensures r.Ok? && withContent && ResolveType(s, path, given) != DirectoryType ==>
      NotebookExists(s, path) && r.value.body == Document(NotebookRow(s, path).content)
    ensures r.Ok? && withContent && ResolveType(s, path, given) == DirectoryType ==>
      r.value.body.Listing? && forall m :: m in r.value.body.items ==> IsChild(path, m.path)
    ensures KnownType(ResolveType(s, path, given)) && ResolveType(s, path, given) != DirectoryType ==>
      (r.Ok? <==> GetNotebook(s, path, withContent).Ok?)
    ensures ResolveType(s, path, given) == DirectoryType ==>
      (r.Ok? <==> GetDir(s, path, withContent, shouldList).Ok?)
    ensures KnownType(ResolveType(s, path, given)) && ResolveType(s, path, given) != DirectoryType && r.Ok? ==>
      r == GetNotebook(s, path, withContent)
    ensures ResolveType(s, path, given) == DirectoryType && r.Ok? ==>
      r == GetDir(s, path, withContent, shouldList)
  {
    var t := ResolveType(s, path, given);
    if !KnownType(t) then Err(UnknownType(t))
    else
      var inner := if t == DirectoryType then GetDir(s, path, withContent, shouldList)
                   else GetNotebook(s, path, withContent);
      match inner
      case Err(_) => Err(ServerError)
      case Ok(m) => Ok(m)
  }

  /** `get` as the source wires it: directories go through the as-written
      `get_dir`, whose listing holds only rows at the directory's own path.
      Everything else, and a directory read without content, behaves as Get. */
  function GetAsWritten(s: Store, path: string, withContent: bool, given: Option<string>, shouldList: string -> bool): (r: Result<Model, Fault>)
    ensures ResolveType(s, path, given) != DirectoryType || !withContent ==>
      r == Get(s, path, withContent, given, shouldList)
    ensures r.Err? ==> r.error == ServerError || r.error.UnknownType?
    ensures r.Ok? ==> r.value.path == path
    ensures r.Ok? && withContent && ResolveType(s, path, given) == DirectoryType ==>
      r.value.kind == DirectoryType && r.value.body.Listing? &&
      forall m :: m in r.value.body.items ==> m.path == path && !IsChild(path, m.path)
    ensures ResolveType(s, path, given) == DirectoryType ==>
      (r.Ok? <==> GetDirAsWritten(s, path, withContent, shouldList).Ok?)
    ensures ResolveType(s, path, given) == DirectoryType && r.Ok? ==>
      r == GetDirAsWritten(s, path, withContent, shouldList)
  {
    var t := ResolveType(s, path, given);
    if !KnownType(t) then Err(UnknownType(t))
    else
      var inner := if t == DirectoryType then GetDirAsWritten(s, path, withContent, shouldList)
                   else GetNotebook(s, path, withContent);
      AsWrittenListsNoChild(s, path, shouldList);
      match inner
      case Err(_) => Err(ServerError)
      case Ok(m) => Ok(m)
  }

  /** Reading a path no entry occupies, without a type, is a server error,
      never a 404: the not-found of `get_notebook` is wrapped. */
  lemma GetAbsentPathIsServerError(s: Store, path: string, withContent: bool, shouldList: string -> bool)
    requires !PathExists(s, path)
    ensures Get(s, path, withContent, None, shouldList) == Err(ServerError)
  {
    assert forall k :: 0 <= k < |s.entries| ==> !Matches(s.entries[k], NotebookAt(path));
  }

  /** `save`, dispatching on `type or guess_type(path)`: notebooks and files
      through `save_notebook`, directories through `save_dir`. A failure
      inside becomes a 500 and keeps what was already written. */
  function Save(cfg: Config, s: Store, d: Draft, path: string, now: int): (r: Step<Model>)
    ensures !KnownType(ResolveType(s, path, d.kind)) ==> r == Step(s, Err(UnknownType(ResolveType(s, path, d.kind))))
    ensures r.out.Err? ==> r.out.error == ServerError || r.out.error.UnknownType?
    ensures r.out.Ok? ==> r.out.value.path == d.path.GetOr(path)
    ensures ResolveType(s, path, d.kind) == DirectoryType ==> r.out.Ok? && (PathExists(s, path) ==> r.store == s)
    ensures r.out.Ok? && ResolveType(s, path, d.kind) != DirectoryType ==>
      NotebookExists(r.store, d.path.GetOr(path)) && NotebookRow(r.store, d.path.GetOr(path)).content == d.content &&
      d.content.Some?
    ensures KnownType(ResolveType(s, path, d.kind)) && ResolveType(s, path, d.kind) != DirectoryType ==>
      (r.out.Ok? <==> SaveNotebook(cfg, s, d, path, now).out.Ok?)
    ensures Valid(s) ==> Valid(r.store)
  {
    var t := ResolveType(s, path, d.kind);
    if !KnownType(t) then Step(s, Err(UnknownType(t)))
    else
      var inner := if t == DirectoryType then EnsureDirectory(cfg, s, d, path, now)
                   else SaveNotebook(cfg, s, d, path, now);
      match inner.out
      case Err(_) => Step(inner.store, Err(ServerError))
      case Ok(m) => inner
  }

  /** A notebook draft without content is refused as a 500 (the 400 of
      `save_notebook`, wrapped) and nothing is written. */
  lemma SaveWithoutContentIsServerError(cfg: Config, s: Store, d: Draft, path: string, now: int)
    requires d.content.None?
    requires ResolveType(s, path, d.kind) == NotebookType || ResolveType(s, path, d.kind) == FileType
    ensures Save(cfg, s, d, path, now) == Step(s, Err(ServerError))
  {
  }

  /** Saving a notebook with content to a path no entry occupies succeeds. */
  lemma SaveFreshNotebook(cfg: Config, s: Store, d: Draft, path: string, now: int)
    requires !PathExists(s, path)
    requires d.content.Some? && d.path.GetOr(path) == path
    requires ResolveType(s, path, d.kind) == NotebookType || ResolveType(s, path, d.kind) == FileType
    ensures Save(cfg, s, d, path, now).out.Ok?
  {
    assert forall k :: 0 <= k < |s.entries| ==> !Matches(s.entries[k], NotebookAt(path));
    assert EnsureCheckpoint(cfg, s, path) == Step(s, Ok(()));
    var q := Query(path, Some(d.name.GetOr(path)), None, None, None);
    var p := SavePatch(cfg, d.content.value, d.created.GetOr(now), now);
    FreshUpsertIsNotebook(s, q, p);
    assert SaveNotebook(cfg, s, d, path, now).out == GetNotebook(UpsertEntry(s, q, p), path, false);
  }

  /** `create_notebook` at a path no entry occupies succeeds. */
  lemma CreateFreshNotebook(cfg: Config, s: Store, d: Draft, path: string, now: int, blank: Blob)
    requires !PathExists(s, path)
    ensures CreateNotebook(cfg, s, d, path, now, blank).out.Ok?
  {
    var full := d.(content := Some(d.content.GetOr(blank)), path := Some(path), kind := Some(NotebookType));
    SaveFreshNotebook(cfg, s, full, path, now);
  }

  /** Upserting a notebook row keyed by a path no entry occupies leaves
      exactly one notebook there. */
  lemma FreshUpsertIsNotebook(s: Store, q: Query, p: Patch)
    requires !PathExists(s, q.path)
    requires q.kind.None? && q.cp.None? && q.ref.None?
    requires p.path.None? && p.kind == Some(NotebookType) && p.cp.None? && p.ref.None?
    ensures NotebookExists(UpsertEntry(s, q, p), q.path)
  {
    var path := q.path;
    assert forall k :: 0 <= k < |s.entries| ==> !Matches(s.entries[k], NotebookAt(path)) && !Matches(s.entries[k], q);
    var t := UpsertEntry(s, q, p);
    UpsertInsertSelect(s.entries, q, p, s.nextOid, NotebookAt(path));
    CountZero(s.entries, NotebookAt(path));
    assert Count(t.entries, NotebookAt(path)) == 1;
    CountOne(t.entries, NotebookAt(path));
    var k := FirstMatch(t.entries, NotebookAt(path)).value;
    assert forall i :: 0 <= i < |t.entries| && Matches(t.entries[i], NotebookAt(path)) ==> i == k;
  }

  /** Reading back what `save` wrote, with content, returns the saved
      document. */
  lemma SaveThenGet(cfg: Config, s: Store, d: Draft, path: string, now: int, shouldList: string -> bool)
    requires ResolveType(s, path, d.kind) == NotebookType || ResolveType(s, path, d.kind) == FileType
    ensures var r := Save(cfg, s, d, path, now);
      var p := d.path.GetOr(path);
      r.out.Ok? ==>
        Get(r.store, p, true, Some(NotebookType), shouldList) ==
          Ok(Model(p, p, NotebookType, now, d.created.GetOr(now), Document(d.content)))
  {
    Entries.SaveThenGet(cfg, s, d, path, now);
  }

  /** `save` as the source writes it: the table is indexed with the draft's
      own `type`, not with the resolved `model_type`, so a draft without a
      type is refused even when the path names a notebook. */
  function SaveAsWritten(cfg: Config, s: Store, d: Draft, path: string, now: int): (r: Step<Model>)
    ensures d.kind.None? ==> r == Step(s, Err(UnknownType("None")))
    ensures d.kind == Some("") ==> r == Step(s, Err(UnknownType("")))
    ensures d.kind.Some? && d.kind.value != "" ==> r == Save(cfg, s, d, path, now)
  {
    match d.kind
    case None => Step(s, Err(UnknownType("None")))
    case Some(t) =>
      if !KnownType(t) then Step(s, Err(UnknownType(t)))
      else
        var inner := if t == DirectoryType then EnsureDirectory(cfg, s, d, path, now)
                     else SaveNotebook(cfg, s, d, path, now);
        match inner.out
        case Err(_) => Step(inner.store, Err(ServerError))
        case Ok(m) => inner
  }

  /** An untyped notebook draft saved to "x.ipynb" in an empty store: as
      written it is refused; dispatching on the guessed type saves it. */
  lemma UntypedSaveRefused(cfg: Config, now: int)
    ensures var d := Draft(None, None, None, None, None, Some("{}"));
      && SaveAsWritten(cfg, EmptyStore(), d, "x.ipynb", now).out == Err(UnknownType("None"))
      && Save(cfg, EmptyStore(), d, "x.ipynb", now).out.Ok?
  {
    var d := Draft(None, None, None, None, None, Some("{}"));
    assert EndsWith("x.ipynb", ".ipynb");
    SaveFreshNotebook(cfg, EmptyStore(), d, "x.ipynb", now);
  }

  /** The model `ensure_root_directory` passes to `ensure_directory`. */
  function RootDraft(now: int): Draft {
    Draft(Some(""), Some(""), Some(DirectoryType), Some(now), Some(now), None)
  }

  /** `ensure_root_directory`: afterwards the root path is occupied, and a
      root written here is one `get_dir_model("")` finds. */
  function EnsureRootDirectory(cfg: Config, s: Store, now: int): (r: Step<Model>)
    ensures r.out.Ok?
    ensures PathExists(r.store, "")
    ensures PathExists(s, "") ==> r.store == s
    ensures !PathExists(s, "") ==> GetDirModel(r.store, "").Ok?
    ensures Valid(s) ==> Valid(r.store)
  {
    RootWritten(cfg, s, now);
    EnsureDirectory(cfg, s, RootDraft(now), "", now)
  }

  lemma RootWritten(cfg: Config, s: Store, now: int)
    ensures var r := EnsureDirectory(cfg, s, RootDraft(now), "", now);
      PathExists(r.store, "") && (!PathExists(s, "") ==> GetDirModel(r.store, "").Ok?)
  {
    var r := EnsureDirectory(cfg, s, RootDraft(now), "", now);
    if !PathExists(s, "") {
      var k := FirstMatch(r.store.entries, DirQuery(r.out.value)).value;
      assert r.store.entries[k].path == "";
      assert Matches(r.store.entries[k], DirRowQuery(""));
    }
  }
}

=== FILE: listing.dfy ===
/** Directory reads: `get_dir_model`, `list_notebooks`, `list_dirs` and
    `get_dir`, with the case-insensitive `sort_key` ordering.

    As written, `list_notebooks(path)` and `list_dirs(path)` select rows
    whose path EQUALS the directory's path, so a directory lists itself and
    never its children. GetDirAsWritten models that; GetDir selects the rows
    directly inside the directory instead, and is what the facade uses. */
module Listing {
  import opened Wrappers
  import opened Text
  import opened Documents
  import opened Database
  import opened PathIndex
  import opened Entries

  /** `sort_key`: the model's path, lower-cased. */
  function SortKey(m: Model): (k: string)
    ensures |k| == |m.path|
    ensures forall i :: 0 <= i < |k| ==> !('A' <= k[i] <= 'Z')
    ensures forall i :: 0 <= i < |k| ==>
      k[i] == m.path[i] || ('A' <= m.path[i] <= 'Z' && k[i] as int == m.path[i] as int + 32)
  {
    Lower(m.path)
  }

  /** Ordered as `sorted(..., key=sort_key)` orders. */
  predicate SortedByKey(ms: seq<Model>) {
    forall i, j :: 0 <= i < j < |ms| ==> LexLe(SortKey(ms[i]), SortKey(ms[j]))
  }

  /** Insert `m` before the first model whose key is not below its own. */
  function InsertByKey(m: Model, ms: seq<Model>): (r: seq<Model>)
    requires SortedByKey(ms)
    ensures SortedByKey(r)
    ensures multiset(r) == multiset(ms) + multiset{m}
  {
    if |ms| == 0 then [m]
    else if LexLe(SortKey(m), SortKey(ms[0])) then
      PrependSorted(m, ms);
      [m] + ms
    else
      var rest := InsertByKey(m, ms[1..]);
      HeadBelowInserted(m, ms, rest);
      PrependSorted(ms[0], rest);
      assert ms == [ms[0]] + ms[1..];
      [ms[0]] + rest
  }

  /** A model whose key is below every key of a sorted sequence may go in
      front of it. */
  lemma PrependSorted(h: Model, ms: seq<Model>)
    requires SortedByKey(ms)
    requires |ms| == 0 || LexLe(SortKey(h), SortKey(ms[0]))
    ensures SortedByKey([h] + ms)
  {
    forall j | 0 <= j < |ms| ensures LexLe(SortKey(h), SortKey(ms[j])) {
      if j > 0 {
        LexLeTransitive(SortKey(h), SortKey(ms[0]), SortKey(ms[j]));
      }
    }
  }

  /** When `m` goes after the head of a sorted sequence, the head's key is
      below every key of the rest with `m` inserted. */
  lemma HeadBelowInserted(m: Model, ms: seq<Model>, rest: seq<Model>)
    requires SortedByKey(ms) && |ms| > 0
    requires !LexLe(SortKey(m), SortKey(ms[0]))
    requires multiset(rest) == multiset(ms[1..]) + multiset{m}
    ensures |rest| == 0 || LexLe(SortKey(ms[0]), SortKey(rest[0]))
    ensures forall x :: x in rest ==> LexLe(SortKey(ms[0]), SortKey(x))
  {
    LexLeTotal(SortKey(m), SortKey(ms[0]));
    forall x | x in rest ensures LexLe(SortKey(ms[0]), SortKey(x)) {
      assert x in multiset(rest);
      if x != m {
        assert x in multiset(ms[1..]);
        var j :| 0 <= j < |ms[1..]| && ms[1..][j] == x;
        assert ms[j + 1] == x;
      }
    }
    if |rest| > 0 {
      assert rest[0] in rest;
    }
  }

  /** `sorted(ms, key=sort_key)`: the same models, ordered by key. */
  function SortByKey(ms: seq<Model>): (r: seq<Model>)
    ensures SortedByKey(r)
    ensures multiset(r) == multiset(ms)
  {
    if |ms| == 0 then []
    else
      assert ms == [ms[0]] + ms[1..];
      InsertByKey(ms[0], SortByKey(ms[1..]))
  }

  function DirRowQuery(path: string): Query {
    Query(path, Some(path), Some(DirectoryType), None, None)
  }

  /** `get_dir_model`: the first directory row whose path and name are
      both `path`, as `find_one` returns it; without one the source raises
      IOError, a server error. */
  function GetDirModel(s: Store, path: string): (r: Result<Model, Fault>)
    ensures r.Err? <==> FirstMatch(s.entries, DirRowQuery(path)).None?
    ensures r.Err? ==> r.error == ServerError
    ensures r.Ok? ==>
      var row := s.entries[FirstMatch(s.entries, DirRowQuery(path)).value];
      && r.value.path == path && r.value.name == path
      && r.value.kind == DirectoryType && r.value.body == Omitted
      && r.value.lastModified == row.lastModified && r.value.created == row.created
  {
    match FirstMatch(s.entries, DirRowQuery(path))
    case None => Err(ServerError)
    case Some(k) =>
      var row := s.entries[k];
      Ok(Model(path, path, DirectoryType, row.lastModified, row.created, Omitted))
  }

  /** The listed paths `should_list` admits, in order. */
  function Admitted(paths: seq<string>, shouldList: string -> bool): (r: seq<string>)
    ensures forall p :: p in r <==> p in paths && shouldList(p)
    ensures forall p :: multiset(r)[p] == if shouldList(p) then multiset(paths)[p] else 0
  {
    if |paths| == 0 then []
    else
      assert paths == [paths[0]] + paths[1..];
      (if shouldList(paths[0]) then [paths[0]] else []) + Admitted(paths[1..], shouldList)
  }

  /** Of a run that repeats one path, `should_list` admits all or none. */
  lemma {:induction false} AdmittedSame(ps: seq<string>, p: string, shouldList: string -> bool)
    requires forall x :: x in ps ==> x == p
    ensures |Admitted(ps, shouldList)| == if shouldList(p) then |ps| else 0
  {
    if |ps| > 0 {
      assert ps[0] in ps && forall x :: x in ps[1..] ==> x in ps;
      AdmittedSame(ps[1..], p, shouldList);
    }
  }

  /** `read(p)` for each of `ps`, in order, as the list comprehensions of
      `list_notebooks` and `list_dirs` do; the first failure is raised. */
  function ReadAll(read: string -> Result<Model, Fault>, ps: seq<string>): (r: Result<seq<Model>, Fault>)
    ensures r.Ok? <==> forall i :: 0 <= i < |ps| ==> read(ps[i]).Ok?
    ensures r.Ok? ==> |r.value| == |ps|
    ensures r.Ok? ==> forall i :: 0 <= i < |ps| ==> Ok(r.value[i]) == read(ps[i])
    ensures r.Err? ==> exists i :: 0 <= i < |ps| && read(ps[i]) == Err(r.error)
  {
    if |ps| == 0 then Ok([])
    else match read(ps[0])
      case Err(f) => Err(f)
      case Ok(m) =>
        match ReadAll(read, ps[1..])
        case Err(f) => Err(f)
        case Ok(ms) => Ok([m] + ms)
  }

  /** The notebook models of `list_notebooks`: `get_notebook(p,
      content=True)` for each listed `p` that `should_list` admits, in
      order; the first failure is raised. */
  function NotebookModels(s: Store, paths: seq<string>, shouldList: string -> bool): (r: Result<seq<Model>, Fault>)
    ensures r.Ok? <==> forall p :: p in paths && shouldList(p) ==> GetNotebook(s, p, true).Ok?
    ensures r.Ok? ==> |r.value| == |Admitted(paths, shouldList)|
    ensures r.Ok? ==> forall i :: 0 <= i < |r.value| ==>
      Ok(r.value[i]) == GetNotebook(s, Admitted(paths, shouldList)[i], true)
    ensures r.Err? ==> exists p :: p in paths && shouldList(p) && GetNotebook(s, p, true) == Err(r.error)
    ensures r.Ok? ==> forall m :: m in r.value ==>
      m.kind == NotebookType && m.body.Document? && m.path in paths && shouldList(m.path)
    ensures r.Ok? ==> forall m :: m in r.value ==> GetNotebook(s, m.path, true) == Ok(m)
  {
    var ps := Admitted(paths, shouldList);
    NotebookReads(s, ps);
    ReadAll(p => GetNotebook(s, p, true), ps)
  }

  /** What reading notebooks at `ps` yields, by path rather than by index. */
  lemma NotebookReads(s: Store, ps: seq<string>)
    ensures var r := ReadAll(p => GetNotebook(s, p, true), ps);
      && (r.Ok? <==> forall p :: p in ps ==> GetNotebook(s, p, true).Ok?)
      && (r.Err? ==> exists p :: p in ps && GetNotebook(s, p, true) == Err(r.error))
      && (r.Ok? ==> forall m :: m in r.value ==> m.kind == NotebookType && m.body.Document? && m.path in ps)
      && (r.Ok? ==> forall m :: m in r.value ==> GetNotebook(s, m.path, true) == Ok(m))
  {
    var r := ReadAll(p => GetNotebook(s, p, true), ps);
    assert forall i :: 0 <= i < |ps| ==> ps[i] in ps;
    if r.Ok? {
      forall m | m in r.value
        ensures m.kind == NotebookType && m.body.Document? && m.path in ps
        ensures GetNotebook(s, m.path, true) == Ok(m)
      {
        var i :| 0 <= i < |r.value| && r.value[i] == m;
        assert GetNotebook(s, ps[i], true) == Ok(m);
      }
    }
  }

  /** The directory models of `list_dirs`: `get_dir_model(p)` for each
      listed `p`, in order; the first failure is raised. */
  function DirModels(s: Store, paths: seq<string>): (r: Result<seq<Model>, Fault>)
    ensures r.Ok? <==> forall p :: p in paths ==> GetDirModel(s, p).Ok?
    ensures r.Ok? ==> |r.value| == |paths|
    ensures r.Ok? ==> forall i :: 0 <= i < |paths| ==> Ok(r.value[i]) == GetDirModel(s, paths[i])
    ensures r.Err? ==> r.error == ServerError
    ensures r.Ok? ==> forall m :: m in r.value ==> m.kind == DirectoryType && m.path in paths
    ensures r.Ok? ==> forall m :: m in r.value ==> GetDirModel(s, m.path) == Ok(m)
  {
    DirReads(s, paths);
    ReadAll(p => GetDirModel(s, p), paths)
  }

  /** What reading directory models at `ps` yields, by path rather than by
      index. */
  lemma DirReads(s: Store, ps: seq<string>)
    ensures var r := ReadAll(p => GetDirModel(s, p), ps);
      && (r.Ok? <==> forall p :: p in ps ==> GetDirModel(s, p).Ok?)
      && (r.Err? ==> r.error == ServerError)
      && (r.Ok? ==> forall m :: m in r.value ==> m.kind == DirectoryType && m.path in ps)
      && (r.Ok? ==> forall m :: m in r.value ==> GetDirModel(s, m.path) == Ok(m))
  {
    var r := ReadAll(p => GetDirModel(s, p), ps);
    assert forall i :: 0 <= i < |ps| ==> ps[i] in ps;
    if r.Ok? {
      forall m | m in r.value
        ensures m.kind == DirectoryType && m.path in ps && GetDirModel(s, m.path) == Ok(m)
      {
        var i :| 0 <= i < |r.value| && r.value[i] == m;
        assert GetDirModel(s, ps[i]) == Ok(m);
      }
    }
  }

  /** The paths of a run of models, in order. */
  function Paths(ms: seq<Model>): (r: seq<string>)
    ensures |r| == |ms|
    ensures forall i :: 0 <= i < |ms| ==> r[i] == ms[i].path
  {
    seq(|ms|, i requires 0 <= i < |ms| => ms[i].path)
  }

  lemma PathsCons(m: Model, ms: seq<Model>)
    ensures Paths([m] + ms) == [m.path] + Paths(ms)
  {
    assert forall i :: 0 <= i < |ms| + 1 ==> Paths([m] + ms)[i] == ([m.path] + Paths(ms))[i];
  }

  /** Inserting a model adds its path to the paths of the run. */
  lemma {:induction false} InsertPaths(m: Model, ms: seq<Model>)
    requires SortedByKey(ms)
    ensures multiset(Paths(InsertByKey(m, ms))) == multiset(Paths(ms)) + multiset{m.path}
  {
    if |ms| == 0 {
      assert Paths([m]) == [m.path];
    } else if LexLe(SortKey(m), SortKey(ms[0])) {
      PathsCons(m, ms);
    } else {
      assert ms == [ms[0]] + ms[1..];
      var rest := InsertByKey(m, ms[1..]);
      InsertPaths(m, ms[1..]);
      PathsCons(ms[0], rest);
      PathsCons(ms[0], ms[1..]);
    }
  }

  /** Sorting keeps the paths of a run, with their multiplicity. */
  lemma {:induction false} SortPaths(ms: seq<Model>)
    ensures multiset(Paths(SortByKey(ms))) == multiset(Paths(ms))
  {
    if |ms| > 0 {
      assert ms == [ms[0]] + ms[1..];
      SortPaths(ms[1..]);
      InsertPaths(ms[0], SortByKey(ms[1..]));
      PathsCons(ms[0], ms[1..]);
    }
  }

  /** The two sorted runs of a listing: notebooks, then directories. */
  function Runs(nbs: Result<seq<Model>, Fault>, dirs: Result<seq<Model>, Fault>): (r: Result<(seq<Model>, seq<Model>), Fault>)
    ensures r.Ok? <==> nbs.Ok? && dirs.Ok?
    ensures r.Ok? ==> multiset(r.value.0) == multiset(nbs.value) && SortedByKey(r.value.0)
    ensures r.Ok? ==> multiset(r.value.1) == multiset(dirs.value) && SortedByKey(r.value.1)
    ensures r.Ok? ==> forall m :: m in r.value.0 <==> m in nbs.value
    ensures r.Ok? ==> forall m :: m in r.value.1 <==> m in dirs.value
    ensures r.Ok? ==> multiset(Paths(r.value.0)) == multiset(Paths(nbs.value))
    ensures r.Ok? ==> multiset(Paths(r.value.1)) == multiset(Paths(dirs.value))
    ensures r.Err? ==> r.error == (if nbs.Err? then nbs.error else dirs.error)
  {
    match nbs
    case Err(f) => Err(f)
    case Ok(ns) =>
      match dirs
      case Err(f) => Err(f)
      case Ok(ds) =>
        var rr := (SortByKey(ns), SortByKey(ds));
        SortPaths(ns);
        SortPaths(ds);
        assert forall m :: m in rr.0 <==> m in multiset(rr.0);
        assert forall m :: m in ns <==> m in multiset(ns);
        assert forall m :: m in rr.1 <==> m in multiset(rr.1);
        assert forall m :: m in ds <==> m in multiset(ds);
        Ok(rr)
  }

  // ---------------------------------------------------------------------
  // As written

  /** The paths of the rows the filter `{'path': path, 'type': kind}` finds. */
  function PathsAt(s: Store, path: string, kind: string): (r: seq<string>)
    ensures forall p :: p in r ==> p == path
    ensures |r| == Count(s.entries, KindAt(path, kind))
  {
    var rows := Select(s.entries, Query(path, None, Some(kind), None, None));
    assert forall i :: 0 <= i < |rows| ==> rows[i] in rows;
    seq(|rows|, i requires 0 <= i < |rows| => rows[i].path)
  }

  /** `get_dir(path, content)` as the source writes it. */
  function GetDirAsWritten(s: Store, path: string, withContent: bool, shouldList: string -> bool): (r: Result<Model, Fault>)
    ensures r.Ok? ==> r.value.path == path && r.value.kind == DirectoryType
    ensures r.Ok? && withContent ==> r.value.body.Listing?
    ensures r.Ok? && withContent ==> forall m :: m in r.value.body.items ==> m.path == path
    ensures !withContent ==> r == GetDirModel(s, path)
    ensures withContent ==> (r.Ok? <==>
      GetDirModel(s, path).Ok? &&
      (Count(s.entries, NotebookAt(path)) == 0 || !shouldList(path) || GetNotebook(s, path, true).Ok?))
    ensures r.Ok? && withContent ==>
      |r.value.body.items| ==
        (if shouldList(path) then Count(s.entries, NotebookAt(path)) else 0) + Count(s.entries, KindAt(path, DirectoryType))
    ensures r.Ok? && withContent ==> forall m :: m in r.value.body.items ==>
      || (m.kind == NotebookType && GetNotebook(s, path, true) == Ok(m))
      || (m.kind == DirectoryType && GetDirModel(s, path) == Ok(m))
  {
    match GetDirModel(s, path)
    case Err(f) => Err(f)
    case Ok(m) =>
      if !withContent then Ok(m)
      else
        match AsWrittenItems(s, path, shouldList)
        case Err(f) => Err(f)
        case Ok(items) => Ok(m.(body := Listing(items)))
  }

  /** The listing `list_notebooks(path) + list_dirs(path)` as written: one
      notebook model per notebook row at `path` itself (if `should_list`
      admits it), then one directory model per directory row there, each
      what reading `path` returns. */
  function AsWrittenItems(s: Store, path: string, shouldList: string -> bool): (r: Result<seq<Model>, Fault>)
    ensures r.Ok? <==>
      && (Count(s.entries, NotebookAt(path)) == 0 || !shouldList(path) || GetNotebook(s, path, true).Ok?)
      && (Count(s.entries, KindAt(path, DirectoryType)) == 0 || GetDirModel(s, path).Ok?)
    ensures r.Ok? ==>
      |r.value| == (if shouldList(path) then Count(s.entries, NotebookAt(path)) else 0) + Count(s.entries, KindAt(path, DirectoryType))
    ensures r.Ok? ==> forall m :: m in r.value ==>
      && m.path == path
      && (|| (m.kind == NotebookType && GetNotebook(s, path, true) == Ok(m))
          || (m.kind == DirectoryType && GetDirModel(s, path) == Ok(m)))
  {
    AsWrittenRunsRead(s, path, shouldList);
    AsWrittenRunsSucceed(s, path, shouldList);
    match AsWrittenRuns(s, path, shouldList)
    case Err(f) => Err(f)
    case Ok(rr) => Ok(rr.0 + rr.1)
  }

  /** The runs `list_notebooks(path)` and `list_dirs(path)` read, as
      written: rows at `path` itself. */
  function AsWrittenRuns(s: Store, path: string, shouldList: string -> bool): Result<(seq<Model>, seq<Model>), Fault> {
    Runs(NotebookModels(s, NotebookNames(s, path), shouldList), DirModels(s, PathsAt(s, path, DirectoryType)))
  }

  /** The as-written runs hold one notebook model per notebook row at
      `path` (if `should_list` admits it) and one directory model per
      directory row there, each what reading `path` returns. */
  lemma AsWrittenRunsRead(s: Store, path: string, shouldList: string -> bool)
    ensures var r := AsWrittenRuns(s, path, shouldList);
      r.Ok? ==>
        && |r.value.0| == (if shouldList(path) then Count(s.entries, NotebookAt(path)) else 0)
        && |r.value.1| == Count(s.entries, KindAt(path, DirectoryType))
        && (forall m :: m in r.value.0 ==> m.kind == NotebookType && GetNotebook(s, path, true) == Ok(m))
        && (forall m :: m in r.value.1 ==> m.kind == DirectoryType && GetDirModel(s, path) == Ok(m))
        && (forall m :: m in r.value.0 + r.value.1 ==> m.path == path)
  {
    AdmittedSame(NotebookNames(s, path), path, shouldList);
    var r := AsWrittenRuns(s, path, shouldList);
    var ps := PathsAt(s, path, DirectoryType);
    var dirs := DirModels(s, ps);
    if r.Ok? {
      assert |r.value.1| == |multiset(r.value.1)| == |multiset(dirs.value)| == |dirs.value| == |ps|;
    }
  }

  /** The as-written runs are read exactly when the notebook at `path`, if
      listed, reads with content, and a directory row at `path`, if any, has
      a directory model. */
  lemma AsWrittenRunsSucceed(s: Store, path: string, shouldList: string -> bool)
    ensures AsWrittenRuns(s, path, shouldList).Ok? <==>
      && (Count(s.entries, NotebookAt(path)) == 0 || !shouldList(path) || GetNotebook(s, path, true).Ok?)
      && (Count(s.entries, KindAt(path, DirectoryType)) == 0 || GetDirModel(s, path).Ok?)
  {
    var ps := PathsAt(s, path, DirectoryType);
    assert |ps| > 0 ==> ps[0] in ps;
  }

  /** As written, a listing never shows an entry inside the directory. */
  lemma AsWrittenListsNoChild(s: Store, path: string, shouldList: string -> bool)
    ensures var r := GetDirAsWritten(s, path, true, shouldList);
      r.Ok? ==> forall m :: m in r.value.body.items ==> !IsChild(path, m.path)
  {
  }

  // ---------------------------------------------------------------------
  // Corrected

  /** The paths of the rows of `kind` directly inside `dir`, in store order. */
  function ChildPaths(rows: seq<Row>, dir: string, kind: string): (r: seq<string>)
    ensures forall p :: p in r <==> exists x :: x in rows && x.kind == kind && IsChild(dir, x.path) && x.path == p
  {
    if |rows| == 0 then []
    else
      assert forall x :: x in rows <==> x == rows[0] || x in rows[1..];
      (if rows[0].kind == kind && IsChild(dir, rows[0].path) then [rows[0].path] else [])
        + ChildPaths(rows[1..], dir, kind)
  }

  /** The filter for rows of `kind` at `p`. */
  function KindAt(p: string, kind: string): Query {
    Query(p, None, Some(kind), None, None)
  }

  /** A path is listed among the children of `dir` once per row of that
      kind at that path, if the path lies directly inside `dir`. */
  lemma {:induction false} ChildPathsCount(rows: seq<Row>, dir: string, kind: string, p: string)
    ensures multiset(ChildPaths(rows, dir, kind))[p] ==
      if IsChild(dir, p) then Count(rows, KindAt(p, kind)) else 0
  {
    if |rows| > 0 {
      ChildPathsCount(rows[1..], dir, kind, p);
      var q := KindAt(p, kind);
      assert Select(rows, q) == (if Matches(rows[0], q) then [rows[0]] else []) + Select(rows[1..], q);
    }
  }

  /** How often each path is among the notebook models read for the
      children of `path`: once at most, since get_notebook refuses a path
      holding two notebooks. */
  lemma NotebookChildCounts(s: Store, path: string, shouldList: string -> bool)
    ensures var nbs := NotebookModels(s, ChildPaths(s.entries, path, NotebookType), shouldList);
      nbs.Ok? ==> forall p ::
        && multiset(Paths(nbs.value))[p] == (if IsChild(path, p) && shouldList(p) then Count(s.entries, NotebookAt(p)) else 0)
        && multiset(Paths(nbs.value))[p] <= 1
  {
    var nps := ChildPaths(s.entries, path, NotebookType);
    var nbs := NotebookModels(s, nps, shouldList);
    if nbs.Ok? {
      var admitted := Admitted(nps, shouldList);
      assert Paths(nbs.value) == admitted;
      forall p ensures
        && multiset(admitted)[p] == (if IsChild(path, p) && shouldList(p) then Count(s.entries, NotebookAt(p)) else 0)
        && multiset(admitted)[p] <= 1
      {
        AdmittedChildCount(s, nps, path, shouldList, p);
      }
    }
  }

  lemma AdmittedChildCount(s: Store, nps: seq<string>, path: string, shouldList: string -> bool, p: string)
    requires nps == ChildPaths(s.entries, path, NotebookType)
    requires NotebookModels(s, nps, shouldList).Ok?
    ensures var admitted := Admitted(nps, shouldList);
      && multiset(admitted)[p] == (if IsChild(path, p) && shouldList(p) then Count(s.entries, NotebookAt(p)) else 0)
      && multiset(admitted)[p] <= 1
  {
    var admitted := Admitted(nps, shouldList);
    ChildPathsCount(s.entries, path, NotebookType, p);
    assert KindAt(p, NotebookType) == NotebookAt(p);
    if multiset(admitted)[p] > 0 {
      assert p in admitted;
      assert GetNotebook(s, p, true).Ok?;
    }
  }

  /** How often each path is among the directory models read for the
      children of `path`: once per directory row there. */
  lemma DirChildCounts(s: Store, path: string)
    ensures var dirs := DirModels(s, ChildPaths(s.entries, path, DirectoryType));
      dirs.Ok? ==> forall p ::
        multiset(Paths(dirs.value))[p] == if IsChild(path, p) then Count(s.entries, KindAt(p, DirectoryType)) else 0
  {
    var dps := ChildPaths(s.entries, path, DirectoryType);
    var dirs := DirModels(s, dps);
    if dirs.Ok? {
      assert Paths(dirs.value) == dps;
      forall p ensures
        multiset(dps)[p] == if IsChild(path, p) then Count(s.entries, KindAt(p, DirectoryType)) else 0
      {
        ChildPathsCount(s.entries, path, DirectoryType, p);
      }
    }
  }

  /** The two runs read for the children of `path`. */
  function ChildRuns(s: Store, path: string, shouldList: string -> bool): Result<(seq<Model>, seq<Model>), Fault> {
    Runs(NotebookModels(s, ChildPaths(s.entries, path, NotebookType), shouldList),
         DirModels(s, ChildPaths(s.entries, path, DirectoryType)))
  }

  /** Every listed model is a direct child of the right kind, and the
      listed notebooks are admitted. */
  lemma ChildRunsSound(s: Store, path: string, shouldList: string -> bool)
    ensures var r := ChildRuns(s, path, shouldList);
      && (r.Ok? ==> SortedByKey(r.value.0) && SortedByKey(r.value.1))
      && (r.Ok? ==> forall m :: m in r.value.0 ==> m.kind == NotebookType && IsChild(path, m.path) && shouldList(m.path))
      && (r.Ok? ==> forall m :: m in r.value.1 ==> m.kind == DirectoryType && IsChild(path, m.path))
      && (r.Ok? ==> forall m :: m in r.value.0 ==> GetNotebook(s, m.path, true) == Ok(m))
      && (r.Ok? ==> forall m :: m in r.value.1 ==> GetDirModel(s, m.path) == Ok(m))
  {
  }

  /** Every admitted child notebook and every child directory is listed. */
  lemma ChildRunsComplete(s: Store, path: string, shouldList: string -> bool)
    ensures var r := ChildRuns(s, path, shouldList);
      && (r.Ok? ==> forall x :: x in s.entries && x.kind == NotebookType && IsChild(path, x.path) && shouldList(x.path) ==>
            exists m :: m in r.value.0 && m.path == x.path)
      && (r.Ok? ==> forall x :: x in s.entries && x.kind == DirectoryType && IsChild(path, x.path) ==>
            exists m :: m in r.value.1 && m.path == x.path)
  {
    var notebooks := ChildPaths(s.entries, path, NotebookType);
    var dirs := ChildPaths(s.entries, path, DirectoryType);
    assert forall x :: x in s.entries && x.kind == NotebookType && IsChild(path, x.path) ==> x.path in notebooks;
    assert forall x :: x in s.entries && x.kind == DirectoryType && IsChild(path, x.path) ==> x.path in dirs;
  }

  /** How often each path is listed. */
  lemma ChildRunsCounted(s: Store, path: string, shouldList: string -> bool)
    ensures var r := ChildRuns(s, path, shouldList);
      && (r.Ok? ==> forall p ::
            && multiset(Paths(r.value.0))[p] == (if IsChild(path, p) && shouldList(p) then Count(s.entries, NotebookAt(p)) else 0)
            && multiset(Paths(r.value.0))[p] <= 1)
      && (r.Ok? ==> forall p ::
            multiset(Paths(r.value.1))[p] == if IsChild(path, p) then Count(s.entries, KindAt(p, DirectoryType)) else 0)
  {
    NotebookChildCounts(s, path, shouldList);
    DirChildCounts(s, path);
  }

  /** The child runs are read exactly when every admitted child notebook
      reads with content and every child directory has its row. */
  lemma ChildRunsSucceed(s: Store, path: string, shouldList: string -> bool)
    ensures ChildRuns(s, path, shouldList).Ok? <==>
      && (forall x :: x in s.entries && x.kind == NotebookType && IsChild(path, x.path) && shouldList(x.path) ==>
            GetNotebook(s, x.path, true).Ok?)
      && (forall x :: x in s.entries && x.kind == DirectoryType && IsChild(path, x.path) ==>
            GetDirModel(s, x.path).Ok?)
  {
    var notebooks := ChildPaths(s.entries, path, NotebookType);
    var dirs := ChildPaths(s.entries, path, DirectoryType);
    assert forall x :: x in s.entries && x.kind == NotebookType && IsChild(path, x.path) ==> x.path in notebooks;
    assert forall x :: x in s.entries && x.kind == DirectoryType && IsChild(path, x.path) ==> x.path in dirs;
  }

  /** The listing of the entries directly inside `path`: its notebooks
      that `shouldList` admits, sorted by key, and its directories, sorted
      by key. */
  function Children(s: Store, path: string, shouldList: string -> bool): (r: Result<(seq<Model>, seq<Model>), Fault>)
    ensures r.Ok? ==> SortedByKey(r.value.0) && SortedByKey(r.value.1)
    ensures r.Ok? ==> forall m :: m in r.value.0 ==> m.kind == NotebookType && IsChild(path, m.path) && shouldList(m.path)
    ensures r.Ok? ==> forall m :: m in r.value.1 ==> m.kind == DirectoryType && IsChild(path, m.path)
    ensures r.Ok? ==> forall m :: m in r.value.0 ==> GetNotebook(s, m.path, true) == Ok(m)
    ensures r.Ok? ==> forall m :: m in r.value.1 ==> GetDirModel(s, m.path) == Ok(m)
    ensures r.Ok? ==> forall x :: x in s.entries && x.kind == NotebookType && IsChild(path, x.path) && shouldList(x.path) ==>
      exists m :: m in r.value.0 && m.path == x.path
    ensures r.Ok? ==> forall x :: x in s.entries && x.kind == DirectoryType && IsChild(path, x.path) ==>
      exists m :: m in r.value.1 && m.path == x.path
    ensures r.Ok? ==> forall p ::
      && multiset(Paths(r.value.0))[p] == (if IsChild(path, p) && shouldList(p) then Count(s.entries, NotebookAt(p)) else 0)
      && multiset(Paths(r.value.0))[p] <= 1
    ensures r.Ok? ==> forall p ::
      multiset(Paths(r.value.1))[p] == if IsChild(path, p) then Count(s.entries, KindAt(p, DirectoryType)) else 0
    ensures r.Ok? <==>
      && (forall x :: x in s.entries && x.kind == NotebookType && IsChild(path, x.path) && shouldList(x.path) ==>
            GetNotebook(s, x.path, true).Ok?)
      && (forall x :: x in s.entries && x.kind == DirectoryType && IsChild(path, x.path) ==>
            GetDirModel(s, x.path).Ok?)
  {
    ChildRunsSucceed(s, path, shouldList);
    ChildRunsSound(s, path, shouldList);
    ChildRunsComplete(s, path, shouldList);
    ChildRunsCounted(s, path, shouldList);
    ChildRuns(s, path, shouldList)
  }

  /** `get_dir(path, content)` listing the entries directly inside `path`:
      its notebooks, then its directories. */
  function GetDir(s: Store, path: string, withContent: bool, shouldList: string -> bool): (r: Result<Model, Fault>)
    ensures r.Ok? ==> r.value.path == path && r.value.kind == DirectoryType
    ensures !withContent ==> r == GetDirModel(s, path)
    ensures withContent ==> (r.Ok? <==> GetDirModel(s, path).Ok? && Children(s, path, shouldList).Ok?)
    ensures r.Ok? && withContent ==>
      Children(s, path, shouldList).Ok? &&
      r.value.body == Listing(Children(s, path, shouldList).value.0 + Children(s, path, shouldList).value.1)
  {
    match GetDirModel(s, path)
    case Err(f) => Err(f)
    case Ok(m) =>
      if !withContent then Ok(m)
      else match Children(s, path, shouldList)
        case Err(f) => Err(f)
        case Ok(rr) => Ok(m.(body := Listing(rr.0 + rr.1)))
  }
}

=== FILE: listing_samples.dfy ===
/** Worked examples of directory listing on a two-row store: directory
    "a" and, inside it, notebook "a/b". As written, listing "a" shows "a"
    itself; corrected, it shows "a/b". */
module ListingSamples {
  import opened Wrappers
  import opened Text
  import opened Documents
  import opened Database
  import opened PathIndex
  import opened Entries
  import opened Listing

  /** A `should_list` that admits every name. */
  predicate ListAll(p: string) {
    true
  }

  /** A store holding directory "a" and, inside it, notebook "a/b". */
  function SampleStore(): Store {
    Store([DirRow(), NotebookRowB()], [], 3)
  }

  function DirRow(): Row {
    Row(1, "a", "a", DirectoryType, None, 0, 0, "u", None, None)
  }

  function NotebookRowB(): Row {
    Row(2, "a/b", "a/b", NotebookType, Some("{}"), 0, 0, "u", None, None)
  }

  function DirA(): Model {
    Model("a", "a", DirectoryType, 0, 0, Omitted)
  }

  function NotebookB(): Model {
    Model("a/b", "a/b", NotebookType, 0, 0, Document(Some("{}")))
  }

  /** A single model is already sorted. */
  lemma SortOne(m: Model)
    ensures SortByKey([m]) == [m]
  {
    assert [m][1..] == [];
  }

  /** As written, listing "a" in the sample store shows "a" itself as its
      only sub-directory and omits "a/b". */
  lemma AsWrittenListsItself()
    ensures GetDirAsWritten(SampleStore(), "a", true, ListAll) == Ok(DirA().(body := Listing([DirA()])))
  {
    var s := SampleStore();
    SampleLookups();
    SampleRuns();
    assert [] + [DirA()] == [DirA()];
  }

  lemma SampleRuns()
    ensures Runs(NotebookModels(SampleStore(), [], ListAll), DirModels(SampleStore(), ["a"])) == Ok(([], [DirA()]))
  {
    SampleLookups();
    SortOne(DirA());
    assert SortByKey([]) == [];
  }

  /** The directory row of "a" is the one get_dir_model reads. */
  lemma SampleDirModel()
    ensures GetDirModel(SampleStore(), "a") == Ok(DirA())
  {
    var rows := SampleStore().entries;
    assert Matches(DirRow(), DirRowQuery("a"));
    assert FirstMatch(rows, DirRowQuery("a")) == Some(0);
  }

  /** What the as-written queries find for "a" in the sample store. */
  lemma SampleLookups()
    ensures GetDirModel(SampleStore(), "a") == Ok(DirA())
    ensures NotebookNames(SampleStore(), "a") == []
    ensures PathsAt(SampleStore(), "a", DirectoryType) == ["a"]
    ensures DirModels(SampleStore(), ["a"]) == Ok([DirA()])
  {
    var s := SampleStore();
    var rows := s.entries;
    assert rows[1..] == [NotebookRowB()] && rows[1..][1..] == [];
    SampleDirModel();
    var q := NotebookAt("a");
    assert !Matches(DirRow(), q) && !Matches(NotebookRowB(), q);
    assert Select(rows[1..], q) == [];
    assert Select(rows, q) == [];
    var dq := Query("a", None, Some(DirectoryType), None, None);
    assert Matches(DirRow(), dq) && !Matches(NotebookRowB(), dq);
    assert Select(rows[1..], dq) == [];
    assert Select(rows, dq) == [DirRow()];
    assert ["a"][1..] == [] && DirModels(s, []) == Ok([]);
    assert [DirA()] + [] == [DirA()];
  }

  /** Corrected, listing "a" in the sample store shows exactly the notebook
      "a/b", with its content. */
  lemma CorrectedListsChildren()
    ensures GetDir(SampleStore(), "a", true, ListAll) == Ok(DirA().(body := Listing([NotebookB()])))
  {
    SampleDirModel();
    SampleChildren();
    assert [NotebookB()] + [] == [NotebookB()];
  }

  /** The corrected child runs of "a": the notebook "a/b" and no directory. */
  lemma SampleChildren()
    ensures Children(SampleStore(), "a", ListAll) == Ok(([NotebookB()], []))
  {
    var s := SampleStore();
    ChildrenOfA();
    SampleNotebook();
    SortOne(NotebookB());
    assert SortByKey([]) == [];
    assert DirModels(s, []) == Ok([]);
    assert ChildRuns(s, "a", ListAll) == Ok(([NotebookB()], []));
  }

  /** Reading "a/b" from the sample store, as list_notebooks does. */
  lemma SampleNotebook()
    ensures NotebookModels(SampleStore(), ["a/b"], ListAll) == Ok([NotebookB()])
  {
    var s := SampleStore();
    var rows := s.entries;
    assert rows[1..] == [NotebookRowB()] && rows[1..][1..] == [];
    var q := NotebookAt("a/b");
    assert !Matches(DirRow(), q) && Matches(NotebookRowB(), q);
    assert Select(rows[1..][1..], q) == [];
    assert Select(rows[1..], q) == [NotebookRowB()];
    assert Select(rows, q) == [NotebookRowB()];
    assert FirstMatch(rows[1..], q) == Some(0);
    assert FirstMatch(rows, q) == Some(1);
    assert NotebookExists(s, "a/b");
    assert GetNotebook(s, "a/b", true) == Ok(NotebookB());
    assert ["a/b"][1..] == [] && NotebookModels(s, [], ListAll) == Ok([]);
    assert [NotebookB()] + [] == [NotebookB()];
  }

  /** The children of "a" in the sample store. */
  lemma ChildrenOfA()
    ensures ChildPaths(SampleStore().entries, "a", NotebookType) == ["a/b"]
    ensures ChildPaths(SampleStore().entries, "a", DirectoryType) == []
  {
    var rows := SampleStore().entries;
    assert rows[1..] == [NotebookRowB()] && rows[1..][1..] == [];
    assert "a/b"[..|"a"|] == "a" && "a/b"[|"a"|] == '/' && "a/b"[|"a"| + 1..] == "b";
    assert IsChild("a", "a/b");
    assert !IsChild("a", "a");
    assert ChildPaths(rows[1..], "a", NotebookType) == ["a/b"];
    assert ChildPaths(rows[1..], "a", DirectoryType) == [];
  }
}

=== FILE: path_index.dfy ===
/** Existence and type queries over the entries collection. None of them
    writes. */
module PathIndex {
  import opened Wrappers
  import opened Text
  import opened Documents
  import opened Database

  /** `path_exists` (also `dir_exists`): at least one entry row of any type
      sits at `p`. */
  function PathExists(s: Store, p: string): (b: bool)
    ensures b <==> exists i :: 0 <= i < |s.entries| && s.entries[i].path == p
  {
    CountZero(s.entries, AtPath(p));
    Count(s.entries, AtPath(p)) > 0
  }

  /** `notebook_exists` (also `file_exists`): exactly one notebook row sits
      at `p`; two of them count as none. */
  function NotebookExists(s: Store, p: string): (b: bool)
    ensures b <==>
      exists k :: 0 <= k < |s.entries| && Matches(s.entries[k], NotebookAt(p)) &&
        forall i :: 0 <= i < |s.entries| && Matches(s.entries[i], NotebookAt(p)) ==> i == k
    ensures b ==> FirstMatch(s.entries, NotebookAt(p)).Some?
  {
    var b := Count(s.entries, NotebookAt(p)) == 1;
    if b then
      CountOne(s.entries, NotebookAt(p));
      var k := FirstMatch(s.entries, NotebookAt(p)).value;
      assert Matches(s.entries[k], NotebookAt(p));
      b
    else
      forall k | 0 <= k < |s.entries| && Matches(s.entries[k], NotebookAt(p))
        ensures exists i :: 0 <= i < |s.entries| && Matches(s.entries[i], NotebookAt(p)) && i != k
      {
        if forall i :: 0 <= i < |s.entries| && Matches(s.entries[i], NotebookAt(p)) ==> i == k {
          CountUnique(s.entries, NotebookAt(p), k);
        }
      }
      b
  }

  /** `get_notebook_names(p)`: the path of every notebook row whose path is
      `p` itself, once per row. */
  function NotebookNames(s: Store, p: string): (r: seq<string>)
    ensures |r| == Count(s.entries, NotebookAt(p))
    ensures forall n :: n in r ==> n == p
    ensures p in r <==> Count(s.entries, NotebookAt(p)) > 0
  {
    var rows := Select(s.entries, NotebookAt(p));
    assert forall i :: 0 <= i < |rows| ==> rows[i] in rows;
    var names := seq(|rows|, i requires 0 <= i < |rows| => rows[i].path);
    assert |rows| > 0 ==> names[0] == p && names[0] in names;
    names
  }

  /** `guess_type`: a `.ipynb` suffix means a notebook, an occupied path a
      directory, anything else a plain file. */
  function GuessType(s: Store, p: string): (t: string)
    ensures t == NotebookType || t == DirectoryType || t == FileType
    ensures EndsWith(p, ".ipynb") ==> t == NotebookType
    ensures !EndsWith(p, ".ipynb") ==> (t == DirectoryType <==> PathExists(s, p))
    ensures t == NotebookType ==> EndsWith(p, ".ipynb")
  {
    if EndsWith(p, ".ipynb") then NotebookType
    else if PathExists(s, p) then DirectoryType
    else FileType
  }
}

=== FILE: text.dfy ===
/** String helpers the manager relies on: Python's `str(n)`, `str.lower`,
    string ordering, `str.endswith`, and the parent/child relation of
    `/`-separated paths. */
module Text {

  predicate IsDigit(c: char) {
    '0' <= c <= '9'
  }

  predicate AllDigits(s: string) {
    forall i :: 0 <= i < |s| ==> IsDigit(s[i])
  }

  function Digit(d: nat): (c: char)
    requires d < 10
    ensures IsDigit(c)
  {
    (d + 48) as char
  }

  /** `str(n)` for a non-negative integer: decimal, no leading zeros. */
  function NatToString(n: nat): (s: string)
    ensures |s| >= 1
    ensures AllDigits(s)
    ensures n < 10 <==> |s| == 1
  {
    if n < 10 then [Digit(n)] else NatToString(n / 10) + [Digit(n % 10)]
  }

  /** `int(s)` for a string of decimal digits; the partner of NatToString. */
  function ParseDecimal(s: string): nat
    requires AllDigits(s)
  {
    if |s| == 0 then 0
    else ParseDecimal(s[..|s| - 1]) * 10 + ((s[|s| - 1] as int) - 48)
  }

  /** Reading back a checkpoint id gives the counter it was made from. */
  lemma {:induction false} ParseNatToString(n: nat)
    ensures ParseDecimal(NatToString(n)) == n
  {
    var s := NatToString(n);
    if n >= 10 {
      ParseNatToString(n / 10);
      assert s[..|s| - 1] == NatToString(n / 10);
    }
  }

  /** Distinct counters give distinct checkpoint ids. */
  lemma NatToStringInjective(a: nat, b: nat)
    ensures NatToString(a) == NatToString(b) ==> a == b
  {
    ParseNatToString(a);
    ParseNatToString(b);
  }

  function LowerChar(c: char): char {
    if 'A' <= c <= 'Z' then (c as int + 32) as char else c
  }

  /** `str.lower`, restricted to ASCII letters. */
  function Lower(s: string): (r: string)
    ensures |r| == |s|
    ensures forall i :: 0 <= i < |s| ==> r[i] == LowerChar(s[i])
  {
    if |s| == 0 then [] else [LowerChar(s[0])] + Lower(s[1..])
  }

  /** Python's `a <= b` on strings: lexicographic by code point, a prefix first. */
  predicate LexLe(a: string, b: string)
    decreases |a|
  {
    |a| == 0 || (|b| > 0 && (a[0] < b[0] || (a[0] == b[0] && LexLe(a[1..], b[1..]))))
  }

  lemma {:induction false} LexLeTotal(a: string, b: string)
    ensures LexLe(a, b) || LexLe(b, a)
    decreases |a|
  {
    if |a| > 0 && |b| > 0 && a[0] == b[0] {
      LexLeTotal(a[1..], b[1..]);
    }
  }

  lemma {:induction false} LexLeTransitive(a: string, b: string, c: string)
    requires LexLe(a, b) && LexLe(b, c)
    ensures LexLe(a, c)
    decreases |a|
  {
    if |a| > 0 && a[0] == b[0] && b[0] == c[0] {
      LexLeTransitive(a[1..], b[1..], c[1..]);
    }
  }

  /** `s.endswith(suffix)`. */
  predicate EndsWith(s: string, suffix: string) {
    |s| >= |suffix| && s[|s| - |suffix|..] == suffix
  }

  /** `p` names an entry directly inside directory `dir` (the root is ""). */
  predicate IsChild(dir: string, p: string) {
    if dir == "" then p != "" && '/' !in p
    else |p| > |dir| + 1 && p[..|dir|] == dir && p[|dir|] == '/' && '/' !in p[|dir| + 1..]
  }
}

=== FILE: wrappers.dfy ===
/** Failure-carrying datatypes shared by every module of the model. */
module Wrappers {

  /** A value that may be absent: a missing key of a Python dict, or a `None`. */
  datatype Option<+T> = None | Some(value: T) {

    /** The carried value, or `default` when absent, as `dict.get(key, default)`. */
    function GetOr(default: T): T {
      match this
      case Some(v) => v
      case None => default
    }
  }

  /** Either a value or the error an operation raised. */
  datatype Result<+T, +E> = Ok(value: T) | Err(error: E)
}
